=== FILE: README.md ===
# anki_helper in Dafny

anki_helper is a terminal program for Japanese vocabulary study. It keeps a word
list (`words.txt`) as a list of *expressions*. It fetches example *sentences* for
the selected expression from Immersion Kit, or from Massif when that finds nothing.
The user marks sentences as *pending notes*. For every pending sentence the program
finds the Anki note of the sentence's word through AnkiConnect. It then sends a
`updateNoteFields` request that writes the sentence and attaches its audio and
picture.

This project models the logic of that program and proves what it promises.
It leaves out the terminal, the network and the file system: their results
are inputs to the model.

| file | module | models |
|---|---|---|
| `wrappers.dfy` | `Wrappers` | `Option` and `Result` |
| `text.dfy` | `Text` | the standard-library string operations the program uses: `trim`, `split_whitespace`/`join`, `find`/`contains`/`replace`, `usize` parsing and printing, UTF-8 byte length |
| `cursor.dfy` | `Cursor` | the wrap-around step every list cursor takes |
| `help_page.dfy` | `HelpPage` | the `Keybinds` help tables and `Keybinds::new` |
| `app.dfy` | `App` | `Sentence`, `Expression`, the `AppState` class, the constructors and `update_error_msg` |
| `anki.dfy` | `Anki` | request building, AnkiConnect's reply, note resolution with the `>([^<]+)<` text extraction, the note-id rule |
| `cmds.dfy` | `Cmds` | the current sentence; deleting words from the expression list and the word file; tidying the word file; copying into the input box; the error log |
| `keybinds.dfy` | `Keybinds` | the pending-notes list and every cursor movement of the key bindings |
| `fetch.dfy` | `Fetch` | turning provider responses into sentences, the dictionary merge, the Massif fallback, the audio cache |
| `ui.dfy` | `Ui` | the split of a sentence around its word, the highlight rules, the default pane texts |

The application state is a class, `App.AppState`. Its fields hold the same
values as the source's struct. The `&mut self` methods of each source file
become methods of that file's module. Each one takes the `AppState` and names
the fields it changes in its `modifies` clause. Loops stay loops. Each is
proved against a specification function whose properties are proved as lemmas
or as the function's own postconditions.

Behaviour of the source worth knowing:

- A `Sentence` has the shape the logic files use: an optional audio URL, a web link and the parent expression. `src/app.rs:45-52` declares an older shape with a plain `audio_url` string and no parent. The fields of `parent_expression` that the logic reads are only its `dict_word`, so the model keeps just that word as `parentWord`. Whole-sentence comparisons (`contains` at src/ui.rs:289, 321 and 336) also compare the parent expression; see `Ui.SentenceHighlighted` under "Left out".
- Note resolution (src/anki.rs:387-422) compares the trimmed word with the *untrimmed* raw field, or with the trimmed extraction. No separate fallback exists for an empty extraction. On ruby markup the extraction yields base plus reading (`Anki.RubyExtraction`): the field `<ruby>食<rt>た</rt></ruby>べる` gives `食た`, so the word `食べる` does not find it.
- The note id comes from the input box for *every* pending sentence when it parses as a number (src/anki.rs:125-141). No per-sentence override exists. The first sentence whose note cannot be found stops the loop.
- `delete_words_from_file` (src/cmds.rs:59-89) removes the words as substrings wherever they occur in a line, not as whole tokens (`Cmds.SubstringDeletion`).
- Only the note id from the search is examined (src/anki.rs:395 asks for the infos of `vec![note_id]`), not every candidate. The model still takes the reply as a list, as the source does.

## Model

| member | source | states |
|---|---|---|
| Text.Trim | src/cmds.rs:217 | the result is a slice of the input with only whitespace cut at either end, and has no whitespace at either end; it is empty exactly when the input is all whitespace; an input without whitespace at its ends is returned unchanged |
| Text.StripBoth | src/cmds.rs:217 | cutting leading whitespace and then trailing whitespace leaves a slice of the input with only whitespace around it, empty exactly when the input is all whitespace |
| Text.TrimAvoids | src/anki.rs:416 | trimming introduces no character the input lacked |
| Text.TrimIdempotent | src/anki.rs:416 | trimming twice is trimming once |
| Text.TrimStart | src/cmds.rs:217 | the result is a suffix of the input, what was dropped is all whitespace, and the result does not start with whitespace |
| Text.TrimEnd | src/cmds.rs:217 | the result is a prefix of the input, what was dropped is all whitespace, and the result does not end with whitespace |
| Text.WordEnd | src/cmds.rs:101 | the run of non-whitespace at the start is maximal: it is followed by whitespace or the end |
| Text.Tokens | src/cmds.rs:101 | every token of `split_whitespace` is non-empty and has no whitespace |
| Text.TokensSkip | src/cmds.rs:101 | whitespace in front of the text, of any length, adds no token |
| Text.TokensSeparator | src/cmds.rs:101 | a word followed by a run of whitespace of any length is one token, then the tokens of the rest |
| Text.TokensOfWordThen | src/cmds.rs:101 | a word followed by whitespace (or nothing) is the first token |
| Text.TokensOfJoin | src/cmds.rs:105 | splitting words joined with single spaces gives the same words back |
| Text.OccursAtTail | src/ui.rs:432 | an occurrence at k + 1 is an occurrence at k in the tail |
| Text.Find | src/ui.rs:432 | `find` returns the first position where the word occurs; when it returns nothing, the word occurs nowhere |
| Text.RemoveAll | src/cmds.rs:73-75 | `replace(p, "")` never lengthens a line and leaves a line unchanged when `p` is empty or absent |
| Text.RemoveAllAtFirst | src/cmds.rs:73-75 | `replace(p, "")` keeps the text before the first occurrence of `p`, drops that occurrence, and goes on with the text after it |
| Text.RemoveAllOnce | src/cmds.rs:73-75 | a pattern that occurs once is cut out exactly there and the rest is kept |
| Text.DigitChar | src/app.rs:141 | the character of a digit is a decimal digit of that value |
| Text.NatToDecimal | src/app.rs:141 | `{}` on an integer gives decimal digits with no leading zero |
| Text.ParseUsize | src/anki.rs:128 | digits, with an optional leading `+`, parse to their value when it fits in 64 bits and fail otherwise; nothing else parses |
| Text.DecimalCanonical | src/app.rs:141 | `{}` prints the canonical decimal form: digits of the value, no leading zero |
| Text.DecimalValue | src/app.rs:141 | the digits printed for n have the value n |
| Text.DecimalRoundTrip | src/anki.rs:128 | printing a `usize` and parsing it back gives the same number |
| Text.Utf8Width | src/cmds.rs:218 | a character takes one to four bytes |
| Text.Utf8Len | src/cmds.rs:218 | the byte length of a string is between its character count and four times that |
| Text.Utf8LenAppend | src/cmds.rs:217-218 | the byte length of a concatenation, such as the input text after a word is appended, is the sum of the byte lengths |
| Text.Utf8LenAscii | src/cmds.rs:218 | the byte length equals the character count exactly when every character is ASCII |
| Cursor.SaturatingPred | src/keybinds.rs:360 | `saturating_sub(1)` is the predecessor, and 0 stays 0 |
| Cursor.StepNext | src/keybinds.rs:296-305 | moving down from an entry of a non-empty list stays in the list and is `(i + 1) mod len` |
| Cursor.StepPrev | src/keybinds.rs:278-287 | moving up from an entry stays in the list and is `(i + len - 1) mod len` |
| Cursor.PrevUndoesNext | src/keybinds.rs:273-307 | moving down then up returns to the same entry |
| Cursor.NextUndoesPrev | src/keybinds.rs:273-307 | moving up then down returns to the same entry |
| HelpPage.WithState | src/keybinds.rs:565-590 | selecting in one section sets that section's cursor and leaves the other cursors, all titles and explanations, and the selected section unchanged |
| HelpPage.NewKeybinds | src/keybinds.rs:635-724 | the tables are valid, with 7/7, 5/5, 4/4 and 5/5 titles and explanations; no cursor is set; the expressions section is selected |
| HelpPage.SelectedAbout | src/keybinds.rs:526-539 | on valid tables, the explanation shown is the one under the selected section's cursor (the first when unset), and the index is in range |
| App.SentenceFrom | src/app.rs:124-138 | every argument lands unchanged in its field |
| App.ExpressionFrom | src/app.rs:147-157 | no readings and no definitions (the reading argument is ignored), sentence 0 selected, no sentence cursor, no exact search, the sentences as given |
| App.ListLabel | src/app.rs:140-143 | the label is the index in canonical decimal (digits of its value, no leading zero, parsing back to it), then `. `, then the text |
| App.AppState.constructor | src/app.rs:77-88 | no expressions, expression 0 selected, the expression list focused, no error, an empty input box; the page, pending notes and help tables take assumed initial values (see "Left out") |
| App.UpdateErrorMsg | src/app.rs:118-120 | the error message becomes `title: err`, and no other field changes |
| Anki.LastIndexOf | src/anki.rs:201 | the position of the last occurrence: no later occurrence follows it, and none exists when it is absent |
| Anki.UrlIntoFileName | src/anki.rs:200-205 | on a URL with a `/`, the file name has no `/` and the URL ends with `/` followed by it |
| Anki.SoundMarkerFile | src/anki.rs:301 | a file name read from a marker is 8 characters shorter than the marker |
| Anki.WriteAudioBytesFile | src/anki.rs:293-303 | the returned marker reads back as exactly the file name written |
| Anki.FieldMap | src/anki.rs:281-291 | a map with exactly one entry, the field name to the value (both `format_sentence_field` and `format_local_audio_field`) |
| Anki.Extend | src/anki.rs:368 | the keys are the union; the added entries win; the other entries are kept |
| Anki.IntoAnkiSentence | src/anki.rs:85-102 | a file name exactly when there is an audio URL, and it is the URL's last segment; a local marker exactly when there is also cached audio, and it names that file |
| Anki.IntoUpdateOnlySentenceReq | src/anki.rs:305-325 | action `updateNoteFields`, version 6, the given id, fields exactly {sentence field ↦ text}, neither audio nor picture |
| Anki.MediaFor | src/anki.rs:337-342 | a media descriptor with the URL, the file name, no hash skip and the one target field |
| Anki.IntoUpdateNoteReq | src/anki.rs:327-385 | a picture exactly when there is an image URL, downloaded into the image field; with a local marker, the fields are the sentence plus the marker and there is no audio download; without one, only the sentence field and one audio download of the sentence's URL |
| Anki.RequestForSentence | src/anki.rs:143-165 | no audio URL gives the sentence-only request; with one, the picture is the image download exactly when there is an image URL; cached audio gives exactly the sentence field plus a marker naming the URL's file in the audio field; otherwise exactly the sentence field, and the audio is downloaded from the URL under that file name |
| Anki.ClassifyResponse | src/anki.rs:266-276 | only a reply with no result and an error fails, with that error; every other combination, both empty included, succeeds |
| Anki.FindNoteFromWord | src/anki.rs:213-239 | fails with `No notes found for: word` exactly when the search is empty; otherwise the last id |
| Anki.IndexOf | src/anki.rs:410 | the position of the first occurrence of a character, and none when it is absent |
| Anki.Captures | src/anki.rs:410-414 | every group of `>([^<]+)<` is non-empty and has no `<`; text without `>` has no groups |
| Anki.ConcatAvoids | src/anki.rs:411-414 | a character absent from every group is absent from their concatenation |
| Anki.ExtractText | src/anki.rs:410-414 | the loop yields the groups concatenated in order; the result has no `<`; text without `>` yields the empty string |
| Anki.NoteVerdict | src/anki.rs:398-417 | a note decides `MissingField` exactly when it lacks the configured field, and `Matched` exactly when that field matches the word |
| Anki.FirstDecisive | src/anki.rs:397-421 | `NoMatch` exactly when every note says so; otherwise the verdict of the first note that does not |
| Anki.FirstDecisiveAt | src/anki.rs:397-421 | the first non-`NoMatch` note decides, whatever follows it |
| Anki.Verdicts | src/anki.rs:397 | one verdict per note, in AnkiConnect's order |
| Anki.ScanInfos | src/anki.rs:397-421 | `NoMatch` exactly when no note lacks the field and none matches; otherwise the verdict of the first note, in AnkiConnect's order, that lacks the field or matches |
| Anki.MatchesExpression | src/anki.rs:416 | the raw field equal to the trimmed word always matches; a field without `>` matches only when it equals the trimmed word or the word is all whitespace; a trimmed word holding `<` matches only the raw field |
| Anki.ExtractionFacts | src/anki.rs:410-416 | the trimmed extraction holds no `<` and is empty for a field without `>` |
| Anki.ResolveNote | src/anki.rs:387-422 | a failed search, or a failed note-info lookup after a non-empty search, fails with that error; no ids gives `No notes found`; success exactly when the notes' first decisive verdict is a match, returning the last id; a missing field gives the configuration error; no match gives `Can't find` |
| Anki.CheckNoteExists | src/anki.rs:387-422 | the loop over the notes returns exactly what `ResolveNote` specifies |
| Anki.PlainFieldMatch | src/anki.rs:416 | on a field without markup only the raw value, or a blank word, matches |
| Anki.CapturesSkip | src/anki.rs:410 | positions before the first `>` start no match |
| Anki.CapturesMatch | src/anki.rs:410 | a match at the start captures up to the first `<` and resumes after it |
| Anki.CapturesEmptyTag | src/anki.rs:410 | `><` starts no match |
| Anki.RubyTailCaptures | src/anki.rs:410 | text after the last tag is not captured |
| Anki.CapturesGroupThen | src/anki.rs:410 | `>group<rest` captures the group and then the captures of the rest |
| Anki.CapturesAfterPrefix | src/anki.rs:410 | a prefix without `>` adds no captures |
| Anki.CapturesNoClose | src/anki.rs:410 | text without `<` captures nothing |
| Anki.RubyCaptures | src/anki.rs:410-414 | ruby markup `<ruby>base<rt>reading</rt></ruby>okurigana` captures the base and the reading, and not the okurigana |
| Anki.RubyExtraction | src/anki.rs:410-414 | a ruby-marked field extracts to its base followed by its reading (`食た` from `<ruby>食<rt>た</rt></ruby>べる`) |
| Anki.ConcatPair | src/anki.rs:413 | two groups concatenate to their sum |
| Anki.RubyMatch | src/anki.rs:416 | a ruby-marked field matches a word exactly when the trimmed word is the raw field or the trimmed base plus reading |
| Anki.NoteIdFor | src/anki.rs:128-139 | a number typed in the input box (trimmed) is the id; otherwise the resolved id, or `Error fetching Note: word: error` |
| Anki.TypedIdOverrides | src/anki.rs:128-129 | typing a note's id selects that note whatever the search finds |
| Anki.CollectNoteIds | src/anki.rs:125-141 | one id per sentence, each the id rule's result for that sentence; at the first failure, stops with that error and the ids before it; with a number in the input box nothing fails and every id is that number |
| Cmds.GetCurrentSentence | src/cmds.rs:11-24 | nothing exactly when there are no expressions, no selected expression, no selected sentence or no sentences; otherwise the selected sentence of the selected expression |
| Cmds.Surviving | src/cmds.rs:26-45 | the survivors plus the matches make up the whole list, and no survivor has a word on the delete list |
| Cmds.SurvivingAppend | src/cmds.rs:26-45 | the filter distributes over concatenation, so the survivors keep their relative order |
| Cmds.SurvivingAll | src/cmds.rs:26-45 | a list with no word to delete is kept whole |
| Cmds.SurvivingExactly | src/cmds.rs:26-45 | an expression survives exactly when it was in the list and its word is not on the delete list |
| Cmds.FirstMatch | src/cmds.rs:27-38 | the first position whose word is on the delete list |
| Cmds.SelectionAfterDelete | src/cmds.rs:48-56 | the entry before the first deleted one when that is not the first entry, otherwise none; that entry survives at the same position |
| Cmds.CollectMatches | src/cmds.rs:27-38 | the positions to delete, ascending, every match included |
| Cmds.GapKept | src/cmds.rs:43-45 | nothing strictly between two neighbouring removal positions is to be deleted |
| Cmds.RemoveAt | src/cmds.rs:43-45 | removing the next position from the back moves the filtered boundary down to it |
| Cmds.SurvivingDropped | src/cmds.rs:43-45 | an expression to delete contributes no survivor |
| Cmds.RemovalDone | src/cmds.rs:43-56 | once all positions are removed the list is the survivors, and the lowest position is the first match |
| Cmds.DeleteExpsFromAppData | src/cmds.rs:26-57 | the list becomes the survivors in order; the selection and the list cursor both become the entry before the first deleted one, or none |
| Cmds.RemoveWords | src/cmds.rs:72-76 | a line never grows and is unchanged when no delete word occurs in it |
| Cmds.RemoveWordsLast | src/cmds.rs:72-76 | the last word of the delete list is removed after all the others |
| Cmds.RemoveWordsAppend | src/cmds.rs:72-76 | the delete words apply one after another in list order: the list `a + b` deletes with `a` and then with `b` |
| Cmds.Rewritten | src/cmds.rs:71-79 | the line count is kept and every line is rewritten the same way |
| Cmds.RewriteLines | src/cmds.rs:71-79 | the nested loops produce the rewritten file |
| Cmds.AllTokens | src/cmds.rs:97-103 | every collected token is a non-empty run without whitespace |
| Cmds.CleanedFile | src/cmds.rs:105-111 | the tidied file is one line |
| Cmds.CleanUpWordsFile | src/cmds.rs:91-114 | the loops produce the tidied file: all tokens in order, joined by single spaces |
| Cmds.CleanedFileTokens | src/cmds.rs:97-111 | tidying keeps the tokens of the file, in order |
| Cmds.CleanedFileIdempotent | src/cmds.rs:91-114 | tidying a tidy file changes nothing |
| Cmds.DeleteWordsFromFile | src/cmds.rs:59-89 | the file is the rewritten lines tidied, and the expression list loses the deleted words as `delete_exps_from_app_data` specifies |
| Cmds.SubstringDeletion | src/cmds.rs:73-75 | illustration on fixed inputs: deleting 猫 from `犬 猫 魚` leaves `犬  魚`, and from `子猫` leaves `子` |
| Cmds.TidyAfterDeletion | src/cmds.rs:97-111 | illustration on a fixed input, derived from `Text.TokensSeparator`: tidying `犬  魚` gives `犬 魚` |
| Cmds.HandleCopyToInput | src/cmds.rs:213-220 | the trimmed selected word is appended to the input, the input is focused, and the cursor is the byte length minus one; with no selection nothing changes |
| Cmds.WriteToErrsLog | src/cmds.rs:268-283 | the old log is kept as a prefix, followed by one line per message in order |
| Keybinds.ReplaceByParent | src/keybinds.rs:223-235 | every entry with the sentence's word is replaced by the sentence, and the others are kept at their positions |
| Keybinds.ReplaceOrPush | src/keybinds.rs:223-241 | the sentence is in the list afterwards; every pending entry for its word is replaced by it in place; other entries are kept; the length grows by one only when the word was absent |
| Keybinds.ReplaceOrPushUnique | src/keybinds.rs:219-245 | at most one pending sentence per word is preserved |
| Keybinds.CheckNotesOrPush | src/keybinds.rs:219-245 | the pending list becomes `ReplaceOrPush` of the current sentence, or is unchanged when there is none; the expression list is focused either way |
| Keybinds.DeleteNote | src/keybinds.rs:248-263 | an empty list is left alone; otherwise the entry under the cursor (default 0) is removed and the others keep their order; an emptied list focuses the expressions; otherwise the cursor moves up unless it was at 0; the cursor stays on an entry |
| Keybinds.PrevCursor | src/keybinds.rs:278-287 | from an entry, one up with wrap-around; with no cursor, the fallback |
| Keybinds.NextCursor | src/keybinds.rs:296-305 | from an entry, one down with wrap-around; with no cursor, the fallback |
| Keybinds.SelectPrevNote | src/keybinds.rs:273-289 | nothing on an empty list; otherwise up one with wrap-around, or the first entry; the cursor stays on an entry |
| Keybinds.SelectNextNote | src/keybinds.rs:291-307 | nothing on an empty list; otherwise down one with wrap-around, or the first entry; the cursor stays on an entry |
| Keybinds.WithSentence | src/keybinds.rs:323-326 | the selected sentence and the sentence cursor both become the new index; nothing else changes |
| Keybinds.SelectPrevSentence | src/keybinds.rs:309-329 | within the selected expression's sentences: up one with wrap-around, or the selected sentence (else 0); only that expression changes |
| Keybinds.SelectNextSentence | src/keybinds.rs:331-354 | as above, down one; an empty sentence list is left alone |
| Keybinds.SelectPrevExp | src/keybinds.rs:356-370 | up one with wrap-around (saturating on an empty list), or the selected expression (else 0); selection and cursor end up equal |
| Keybinds.SelectNextExp | src/keybinds.rs:372-386 | down one with wrap-around, or the selected expression (else 0); selection and cursor end up equal |
| Keybinds.SectionLen | src/keybinds.rs:565-590 | on valid tables a section has at least one title and as many explanations as titles |
| Keybinds.SelectPrevKeybind | src/keybinds.rs:592-606 | only the section's cursor changes: up one with wrap-around, or 0; valid tables stay valid |
| Keybinds.SelectNextKeybind | src/keybinds.rs:608-622 | only the section's cursor changes: down one with wrap-around, or 0; valid tables stay valid |
| Fetch.MassifSentences | src/fetch.rs:126-141 | one sentence per result, in order, with the result's text, no audio URL, no bytes, no image, the source title as media title, and the Massif search link |
| Fetch.MassifOutcome | src/fetch.rs:115-149 | a failed request or no results changes nothing, and no results fails with `0 Sentences Found!`; otherwise the list is the old one with only that expression's `sentences` field replaced by the converted ones |
| Fetch.FetchMassifApi | src/fetch.rs:115-149 | the method's result and new list are exactly `MassifOutcome` |
| Fetch.MassifFallback | src/cmds.rs:148-156 | with no selected expression, success and nothing changes; otherwise the Massif search for the selected word |
| Fetch.FetchMassifSentences | src/cmds.rs:148-156 | the method's result and new list are exactly `MassifFallback` |
| Fetch.ImageUrl | src/fetch.rs:190-194 | an empty image URL is no image, and a non-empty one is kept |
| Fetch.Filter | src/fetch.rs:201-225 | an example is kept exactly when the priority list is empty or has its deck; with an empty list, all are kept |
| Fetch.FilterSingle | src/fetch.rs:201-225 | a single example is kept alone or dropped |
| Fetch.FilterAppend | src/fetch.rs:201-225 | the filter keeps order and multiplicity: it distributes over concatenation |
| Fetch.IkSentence | src/fetch.rs:196-212 | the sound URL is the audio URL; there are no bytes; no image exactly when the URL is empty; the deck is the media title; the Immersion Kit link |
| Fetch.ItemSentences | src/fetch.rs:186-227 | one sentence per kept example, in the filter's order, each the sentence made from that example; every sentence comes from a listed deck or the list is empty; with an empty list there is one sentence per example |
| Fetch.DefinitionsContain | src/fetch.rs:174-176 | every glossary entry of every section is among the definitions added |
| Fetch.Definitions | src/fetch.rs:174-176 | every definition added is a glossary entry of some section |
| Fetch.NewReadings | src/fetch.rs:178-183 | at most one reading per section is pushed, and none is in the snapshot or equal to the word |
| Fetch.LastSentences | src/fetch.rs:171-229 | the sentences left after the loop are exactly those made from the kept examples of the last item; with no items there are none |
| Fetch.ItemSentencesFrom | src/fetch.rs:186-227 | every sentence of an item comes from one of its kept examples |
| Fetch.NewReadingsExactly | src/fetch.rs:178-183 | a reading is added exactly when some section has it and it is neither in the snapshot nor the word itself |
| Fetch.ConcatStep | src/fetch.rs:172-184 | one more dictionary list adds its definitions and readings after the others |
| Fetch.ItemStep | src/fetch.rs:171-184 | one more item adds its definitions and readings after the others |
| Fetch.DefinitionsAppend | src/fetch.rs:174-176 | the definitions of two runs of sections are those of the first followed by those of the second |
| Fetch.NewReadingsAppend | src/fetch.rs:178-183 | the same holds for the readings |
| Fetch.RepeatedReadingPushedTwice | src/fetch.rs:178-183 | a new reading that appears twice in one response is pushed twice, because the check uses the snapshot |
| Fetch.Merged | src/fetch.rs:171-184 | the definitions of all sections are appended to the old ones, in order; the readings are the old ones followed by the new readings of all sections, each fresh and different from the word; every other field of the expression is unchanged |
| Fetch.MergeSections | src/fetch.rs:173-183 | the inner loop appends the sections' definitions and new readings |
| Fetch.MergeDictionary | src/fetch.rs:172-184 | the middle loop appends the definitions and new readings of every dictionary list |
| Fetch.MergeItems | src/fetch.rs:171-230 | the item loop gives the merged expression and the last item's sentences |
| Fetch.FetchIkApi | src/fetch.rs:151-240 | Massif mode is the Massif search; a failed request changes nothing; otherwise the expression is merged, and the last item's sentences are stored, or the Massif search runs on the merged list when there are none |
| Fetch.WithAudio | src/fetch.rs:272 | only the cache of that one sentence is set; every other sentence and expression is unchanged |
| Fetch.PlayAudio | src/fetch.rs:261-290 | nothing without a selected sentence; cached bytes are played without downloading or change; no audio URL fails with `Audio URL not found`; a failed download changes nothing; otherwise the bytes are stored in the cache and played |
| Fetch.CacheFilledOnce | src/fetch.rs:267-275 | after a download the cache holds the bytes and the selection is unchanged, so the next call takes the cached branch |
| Ui.SplitAround | src/ui.rs:431-437 | the three parts make up the sentence; when the word occurs, the middle is the word, at its first occurrence, and the part before does not contain it; otherwise the cut starts at 0 and takes the word's length |
| Ui.ExpressionHighlighted | src/ui.rs:211-219 | an expression is highlighted exactly when some pending sentence has its word as parent word |
| Ui.SentenceHighlighted | src/ui.rs:289-291 | a sentence is highlighted exactly when it is among the pending sentences |
| Ui.MarkedIsHighlighted | src/ui.rs:211-219 | after `check_notes_or_push`, the sentence and the expression it was fetched for are highlighted |
| Ui.InfoText | src/ui.rs:39-51 | the message when there is one; otherwise `Words: [` and `]` around the word count in canonical decimal (digits of its value, no leading zero), which parses back to it |
| Ui.ErrorText | src/ui.rs:81-93 | the error when there is one; otherwise `No Errors. :-)` |

## Left out

- HTTP and RPC: the AnkiConnect POST, the AnkiConnect client calls (search, note infos, `open_note_gui`) and the provider GETs. Their outcomes are `Result` arguments, and a transport error is an `Err` with its message.
- Reading `config.json` (`read_config`, also read inside `check_note_exists` and `fetch_ik_api`): the configuration is an argument. A failed read is not modelled.
- File access: opening, writing, renaming and removing `words.txt`, `temp.txt` and `data/err_log.txt`. Files are their sequences of lines, and I/O errors are not modelled.
- Anki.WriteAudioBytesFile: the bytes are not written to the media directory, and the `unwrap` of a failed write is not modelled; only the returned marker is.
- The `update_last_anki_card` orchestration (src/anki.rs:106-197): it refers to `sentence` and `note_id`, which are not defined, and mixes revisions. Only its id rule (`Anki.NoteIdFor`, `Anki.CollectNoteIds`) and the request choice (`Anki.RequestForSentence`) are modelled, and so are the builders it calls.
- `find_newest_note` (src/anki.rs:242-252): it is never called.
- Timing messages built from `Instant` and the info messages of `fetch_sentences`.
- Audio playback (`rodio`, `spawn_blocking`), the clipboard, the web browser and `restart_program`.
- `handle_paste`, `reset_sentences_index`, `read_words_file` and `_write_media`: these are not part of the modelled logic.
- The `render_*` methods, layouts and widgets, and the key dispatch in `handle_keybinds`.
- `src/audio.rs`, which is entirely commented out; `src/main.rs`, which is terminal setup; `src/input.rs`, whose `clamp_cursor` helper is not in the repository.
- Concurrency: the `rayon` `par_iter` over matches and over Massif results collects in order, so it is modelled as a sequential loop or map.
- Ui.SplitAround: a cut inside a multi-byte character panics in the source. The model does not reject such a cut; it only requires the cut to stay within the sentence. Strings are sequences of Unicode scalar values. `str::len` is `Text.Utf8Len` where the source uses it for the input cursor.
- Keybinds.SelectPrevSentence, Keybinds.SelectNextExp, Keybinds.SelectPrevKeybind and Keybinds.SelectNextKeybind: the source computes `len - 1` unchecked when the list is empty. These methods require a non-empty list in that case, instead of modelling the panic.
- Keybinds.SelectPrevSentence and Keybinds.SelectNextSentence: the source indexes `self.expressions[exp_index]` without a check (src/keybinds.rs:311 and 333). These methods require the selected expression index to be in range, instead of modelling the panic.
- Anki.UrlIntoFileName, Anki.IntoAnkiSentence, Anki.IntoUpdateNoteReq and Anki.RequestForSentence: `url_into_file_name` panics on a URL without `/` (src/anki.rs:200-205). These members require a `/` in every URL they cut, instead of modelling the panic.
- Keybinds.DeleteNote, Cmds.GetCurrentSentence, Fetch.PlayAudio and Cmds.HandleCopyToInput: the source panics on an index out of range or an unwrap of `None`. These members require that it does not happen.
- Cmds.HandleCopyToInput: `self.input.text.len() - 1` underflows when the input text is still empty after the word is appended (src/cmds.rs:218). The method requires a non-empty result, instead of modelling the panic.
- Ui.SentenceHighlighted: the source compares whole sentences, including every field of `parent_expression` (src/ui.rs:289, 321 and 336). The model's sentence keeps only the parent's word, so a pending sentence is still highlighted after its expression gains readings or definitions from a later fetch, where the source would not highlight it.
- App.AppState.constructor: `AppState::new` (src/app.rs:77-88) sets no page, pending-notes list or help tables; the struct at src/app.rs:64-74 lacks those fields, and `Keybinds` derives `Default` with empty tables (src/keybinds.rs:20). The model assumes the main page, an empty pending list and the tables of `Keybinds::new` (src/keybinds.rs:635-724).
- Note ids are unbounded naturals. The `u64`/`usize` conversions are not modelled, except that a typed id must fit in 64 bits.
- The enum variants differ between revisions (`Pages::Split`/`Splice`, `SelectMode::Ntbm`). One consistent set is used: `Page = Main | Help | Splice` and `SelectMode = Expressions | Sentences | Input | Notes`.

=== FILE: anki.dfy ===
/**
  anki.rs: the requests that update the fields of an Anki note through
  AnkiConnect, the classification of AnkiConnect's reply, and the search for
  the note that belongs to a word. The AnkiConnect calls themselves are inputs:
  a search result is a sequence of note ids, a note is its field map.
*/
module Anki {
  import opened Wrappers
  import opened Text
  import opened App

  // ---------------------------------------------------------------------------
  // Request shapes

  datatype Media = Media(url: string, filename: string, skipHash: Option<string>, fields: seq<string>)

  datatype Note = Note(id: nat, fields: map<string, string>, audio: Option<seq<Media>>, picture: Option<seq<Media>>)

  datatype UpdateNoteParams = UpdateNoteParams(note: Note)

  datatype Request = Request(action: string, version: nat, params: UpdateNoteParams)

  /** The names of the note fields that the configuration file maps to. */
  datatype UserNoteFields = UserNoteFields(expression: string, sentence: string, sentenceAudio: string, image: string)

  /** `ConfigJson`; its `options` are never read by the core. */
  datatype ConfigJson = ConfigJson(fields: UserNoteFields, mediaPath: string)

  /** AnkiConnect's reply envelope. */
  datatype ReqResult = ReqResult(result: Option<seq<nat>>, error: Option<string>)

  datatype AnkiSentence = AnkiSentence(sentence: Sentence, filename: Option<string>, localAudioUrl: Option<string>)

  const UPDATE_ACTION := "updateNoteFields"
  const API_VERSION: nat := 6

  // ---------------------------------------------------------------------------
  // File names and sound markers

  /** The index of the last occurrence of `c` in `s`. */
  function LastIndexOf(s: string, c: char): (r: Option<nat>)
    ensures r.Some? ==> r.value < |s| && s[r.value] == c && c !in s[r.value + 1..]
    ensures r.None? <==> c !in s
  {
    if s == [] then None
    else if s[|s| - 1] == c then Some(|s| - 1)
    else
      var r := LastIndexOf(s[..|s| - 1], c);
      assert s == s[..|s| - 1] + [s[|s| - 1]];
      if r.Some? then
        assert s[r.value + 1..] == s[..|s| - 1][r.value + 1..] + [s[|s| - 1]];
        r
      else
        r
  }

  /**
    `url_into_file_name`: the text after the last `/`. A URL without `/`
    makes the source panic, hence the precondition.
  */
  function UrlIntoFileName(url: string): (name: string)
    requires '/' in url
    ensures '/' !in name
    ensures |name| < |url| && url[|url| - |name| - 1] == '/' && url[|url| - |name|..] == name
  {
    url[LastIndexOf(url, '/').value + 1..]
  }

  /** The file name inside a `[sound:…]` marker, the way Anki reads the marker back. */
  function SoundMarkerFile(marker: string): (f: Option<string>)
    ensures f.Some? ==> |f.value| + 8 == |marker|
  {
    if |marker| >= 8 && marker[..7] == "[sound:" && marker[|marker| - 1] == ']' then
      Some(marker[7..|marker| - 1])
    else
      None
  }

  /**
    `write_audio_bytes_file`: the marker that makes Anki play `filename`. The
    write of `bytes` into `mediaDir` is a side effect outside this model.
  */
  function WriteAudioBytesFile(mediaDir: string, filename: string, bytes: seq<bv8>): (marker: string)
    ensures SoundMarkerFile(marker) == Some(filename)
  {
    var marker := "[sound:" + filename + "]";
    assert marker[..7] == "[sound:";
    assert marker[7..|marker| - 1] == filename;
    marker
  }

  // ---------------------------------------------------------------------------
  // Field maps

  /**
    `format_sentence_field` and `format_local_audio_field`, which are the same
    function: a map with the one entry `fieldName ↦ value`.
  */
  function FieldMap(fieldName: string, value: string): (m: map<string, string>)
    ensures m.Keys == {fieldName} && m[fieldName] == value
  {
    map[fieldName := value]
  }

  /** `HashMap::extend`: the entries of `extra` are added, overwriting equal keys. */
  function Extend(m: map<string, string>, extra: map<string, string>): (r: map<string, string>)
    ensures r.Keys == m.Keys + extra.Keys
    ensures forall k :: k in extra ==> r[k] == extra[k]
    ensures forall k :: k in m && k !in extra ==> r[k] == m[k]
  {
    m + extra
  }

  // ---------------------------------------------------------------------------
  // Building requests

  /**
    `AnkiSentence::into_anki_sentence`: a file name exactly when the sentence
    has an audio URL, and a local sound marker exactly when it has an audio URL
    and already holds the audio bytes.
  */
  function IntoAnkiSentence(s: Sentence, config: ConfigJson): (a: AnkiSentence)
    requires s.audioUrl.Some? ==> '/' in s.audioUrl.value
    ensures a.sentence == s
    ensures a.filename.Some? <==> s.audioUrl.Some?
    ensures a.localAudioUrl.Some? <==> s.audioUrl.Some? && s.audioData.Some?
    ensures a.filename.Some? ==> a.filename.value == UrlIntoFileName(s.audioUrl.value)
    ensures a.localAudioUrl.Some? ==> SoundMarkerFile(a.localAudioUrl.value) == a.filename
  {
    match s.audioUrl
    case Some(url) =>
      var filename := UrlIntoFileName(url);
      var local := if s.audioData.Some? then Some(WriteAudioBytesFile(config.mediaPath, filename, s.audioData.value)) else None;
      AnkiSentence(s, Some(filename), local)
    case None =>
      AnkiSentence(s, None, None)
  }

  /** `into_update_only_sentence_req`: only the sentence field is written; no media. */
  function IntoUpdateOnlySentenceReq(id: nat, fields: UserNoteFields, s: Sentence): (req: Request)
    ensures req.action == UPDATE_ACTION && req.version == API_VERSION
    ensures req.params.note.id == id
    ensures req.params.note.fields.Keys == {fields.sentence}
    ensures req.params.note.fields[fields.sentence] == s.text
    ensures req.params.note.audio.None? && req.params.note.picture.None?
  {
    Request(UPDATE_ACTION, API_VERSION, UpdateNoteParams(Note(id, FieldMap(fields.sentence, s.text), None, None)))
  }

  /** The media descriptor Anki downloads `url` from into the note field `field`. */
  function MediaFor(url: string, filename: string, field: string): (m: Media)
    ensures m.url == url && m.filename == filename && m.skipHash.None? && m.fields == [field]
  {
    Media(url, filename, None, [field])
  }

  /**
    `into_update_note_req`: the sentence field, a picture downloaded from the
    image URL when there is one, and the audio either as a local sound marker
    written into the audio field or, without one, as a download of the
    sentence's audio URL. The source unwraps the audio URL in the second case.
  */
  method IntoUpdateNoteReq(id: nat, fields: UserNoteFields, s: Sentence, filename: string, localAudioUrl: Option<string>)
    returns (req: Request)
    requires s.imgUrl.Some? ==> '/' in s.imgUrl.value
    requires localAudioUrl.None? ==> s.audioUrl.Some?
    ensures req.action == UPDATE_ACTION && req.version == API_VERSION
    ensures req.params.note.id == id
    ensures req.params.note.picture.Some? <==> s.imgUrl.Some?
    ensures s.imgUrl.Some? ==>
              req.params.note.picture.value == [MediaFor(s.imgUrl.value, UrlIntoFileName(s.imgUrl.value), fields.image)]
    ensures localAudioUrl.Some? ==>
              && req.params.note.fields == map[fields.sentence := s.text][fields.sentenceAudio := localAudioUrl.value]
              && req.params.note.audio.None?
    ensures localAudioUrl.None? ==>
              && req.params.note.fields == map[fields.sentence := s.text]
              && req.params.note.audio == Some([MediaFor(s.audioUrl.value, filename, fields.sentenceAudio)])
  {
    var sentenceField := FieldMap(fields.sentence, s.text);
    var picture: Option<seq<Media>> := None;
    if s.imgUrl.Some? {
      picture := Some([MediaFor(s.imgUrl.value, UrlIntoFileName(s.imgUrl.value), fields.image)]);
    }
    var localAudioField: Option<map<string, string>> := None;
    if localAudioUrl.Some? {
      localAudioField := Some(FieldMap(fields.sentenceAudio, localAudioUrl.value));
    }
    var note := Note(id, sentenceField, None, picture);
    if localAudioField.Some? {
      note := note.(fields := Extend(note.fields, localAudioField.value));
    } else {
      note := note.(audio := Some([MediaFor(s.audioUrl.value, filename, fields.sentenceAudio)]));
    }
    req := Request(UPDATE_ACTION, API_VERSION, UpdateNoteParams(note));
  }

  /**
    The request `update_last_anki_card` sends for one pending sentence: a
    sentence-only update when the sentence has no audio URL, otherwise the full
    update with the audio file name taken from the URL.
  */
  method RequestForSentence(id: nat, config: ConfigJson, s: Sentence) returns (req: Request)
    requires s.audioUrl.Some? ==> '/' in s.audioUrl.value
    requires s.audioUrl.Some? && s.imgUrl.Some? ==> '/' in s.imgUrl.value
    ensures req.action == UPDATE_ACTION && req.version == API_VERSION && req.params.note.id == id
    ensures s.audioUrl.None? ==> req == IntoUpdateOnlySentenceReq(id, config.fields, s)
    ensures s.audioUrl.Some? ==>
              req.params.note.picture ==
                if s.imgUrl.Some? then Some([MediaFor(s.imgUrl.value, UrlIntoFileName(s.imgUrl.value), config.fields.image)])
                else None
    ensures s.audioUrl.Some? && s.audioData.Some? ==>
              && req.params.note.audio.None?
              && req.params.note.fields ==
                   map[config.fields.sentence := s.text]
                      [config.fields.sentenceAudio :=
                         WriteAudioBytesFile(config.mediaPath, UrlIntoFileName(s.audioUrl.value), s.audioData.value)]
              && SoundMarkerFile(req.params.note.fields[config.fields.sentenceAudio]) == Some(UrlIntoFileName(s.audioUrl.value))
    ensures s.audioUrl.Some? && s.audioData.None? ==>
              && req.params.note.fields == map[config.fields.sentence := s.text]
              && req.params.note.audio == Some([MediaFor(s.audioUrl.value, UrlIntoFileName(s.audioUrl.value), config.fields.sentenceAudio)])
  {
    var a := IntoAnkiSentence(s, config);
    match a.filename {
      case Some(filename) =>
        req := IntoUpdateNoteReq(id, config.fields, s, filename, a.localAudioUrl);
      case None =>
        req := IntoUpdateOnlySentenceReq(id, config.fields, s);
    }
  }

  // ---------------------------------------------------------------------------
  // AnkiConnect's reply

  /**
    The envelope match of `post_note_update`: only a reply with no result and an
    error is a failure; every other combination counts as success.
  */
  function ClassifyResponse(res: ReqResult): (r: Result<()>)
    ensures r.Err? <==> res.result.None? && res.error.Some?
    ensures r.Err? ==> r.error == res.error.value
  {
    match res
    case ReqResult(None, Some(err)) => Err(err)
    case _ => Ok(())
  }

  // ---------------------------------------------------------------------------
  // Finding the note of a word

  /**
    `find_note_from_word` and `direct_find_note_from_word`, given the ids the
    search for `word` returned: the last id, or an error when there is none.
  */
  function FindNoteFromWord(ids: seq<nat>, word: string): (r: Result<nat>)
    ensures r.Err? <==> ids == []
    ensures r.Err? ==> r.error == "No notes found for: " + word
    ensures r.Ok? ==> r.value in ids && r.value == ids[|ids| - 1]
  {
    if ids == [] then Err("No notes found for: " + word) else Ok(ids[|ids| - 1])
  }

  /** The index of the first occurrence of `c` in `s`. */
  function IndexOf(s: string, c: char): (r: Option<nat>)
    ensures r.Some? ==> r.value < |s| && s[r.value] == c && c !in s[..r.value]
    ensures r.None? <==> c !in s
  {
    if s == [] then None
    else if s[0] == c then Some(0)
    else
      var r := IndexOf(s[1..], c);
      if r.Some? then
        assert s[..r.value + 1] == [s[0]] + s[1..][..r.value];
        Some(r.value + 1)
      else
        None
  }

  /**
    The capture groups of the regular expression `>([^<]+)<` over `s`, found
    leftmost first and without overlap. A match starts at a `>` that is followed
    by a character other than `<` and, later, by a `<`; its group is everything
    up to the first such `<`, and the search resumes after that `<`.
  */
  function Captures(s: string): (cs: seq<string>)
    ensures forall k :: 0 <= k < |cs| ==> cs[k] != [] && '<' !in cs[k]
    ensures '>' !in s ==> cs == []
    decreases |s|
  {
    if |s| < 2 then []
    else if s[0] == '>' && s[1] != '<' && IndexOf(s, '<').Some? then
      var q := IndexOf(s, '<').value;
      assert q >= 2 by {
        assert s[..2] == [s[0], s[1]];
      }
      [s[1..q]] + Captures(s[q + 1..])
    else
      Captures(s[1..])
  }

  lemma {:induction false} ConcatAvoids(ss: seq<string>, c: char)
    requires forall k :: 0 <= k < |ss| ==> c !in ss[k]
    ensures c !in Concat(ss)
  {
    if ss != [] {
      ConcatAvoids(ss[..|ss| - 1], c);
    }
  }

  /**
    The loop of `check_note_exists` that appends every capture group to
    `result`: the groups concatenated in order, so the text holds no `<`.
  */
  method ExtractText(html: string) returns (result: string)
    ensures result == Concat(Captures(html))
    ensures '<' !in result
    ensures '>' !in html ==> result == ""
  {
    var caps := Captures(html);
    result := "";
    var i := 0;
    while i < |caps|
      invariant 0 <= i <= |caps|
      invariant result == Concat(caps[..i])
    {
      assert caps[..i + 1][..i] == caps[..i];
      result := result + caps[i];
      i := i + 1;
    }
    assert caps[..|caps|] == caps;
    ConcatAvoids(caps, '<');
  }

  /** The comparison of `check_note_exists`: the trimmed word against the raw field or the trimmed extraction. */
  predicate MatchesExpression(exp: string, html: string): (b: bool)
    ensures Trim(exp) == html ==> b
    ensures '>' !in html ==> (b <==> Trim(exp) == html || AllWhitespace(exp))
    ensures '<' in Trim(exp) ==> (b <==> Trim(exp) == html)
  {
    ExtractionFacts(html);
    Trim(exp) == html || Trim(exp) == Trim(Concat(Captures(html)))
  }

  /** The trimmed extraction never holds `<`, and is empty for a field without `>`. */
  lemma ExtractionFacts(html: string)
    ensures '<' !in Trim(Concat(Captures(html)))
    ensures '>' !in html ==> Trim(Concat(Captures(html))) == []
  {
    var text := Concat(Captures(html));
    ConcatAvoids(Captures(html), '<');
    TrimAvoids(text, '<');
    if '>' !in html {
      assert text == [];
    }
  }

  datatype Scan = Matched | MissingField | NoMatch

  /** What one note decides: it lacks the configured field, it holds the word, or the search goes on. */
  function NoteVerdict(exp: string, field: string, note: map<string, string>): (v: Scan)
    ensures v == MissingField <==> field !in note
    ensures v == Matched <==> field in note && MatchesExpression(exp, note[field])
  {
    if field !in note then MissingField
    else if MatchesExpression(exp, note[field]) then Matched
    else NoMatch
  }

  /** The first verdict that is not `NoMatch`, or `NoMatch` when there is none. */
  function FirstDecisive(vs: seq<Scan>): (o: Scan)
    ensures o == NoMatch <==> forall j :: 0 <= j < |vs| ==> vs[j] == NoMatch
    ensures o != NoMatch ==> exists k :: 0 <= k < |vs| && vs[k] == o && forall j :: 0 <= j < k ==> vs[j] == NoMatch
  {
    if vs == [] then NoMatch
    else if vs[0] != NoMatch then vs[0]
    else
      var o := FirstDecisive(vs[1..]);
      assert forall j :: 1 <= j < |vs| ==> vs[j] == vs[1..][j - 1];
      assert o != NoMatch ==> exists k :: 0 <= k < |vs| && vs[k] == o && forall j :: 0 <= j < k ==> vs[j] == NoMatch by {
        if o != NoMatch {
          var k :| 0 <= k < |vs[1..]| && vs[1..][k] == o && forall j :: 0 <= j < k ==> vs[1..][j] == NoMatch;
          assert vs[k + 1] == o;
        }
      }
      o
  }

  /** The first decisive verdict is the one at the first index that is not `NoMatch`. */
  lemma {:induction false} FirstDecisiveAt(vs: seq<Scan>, k: nat)
    requires k < |vs| && vs[k] != NoMatch
    requires forall j :: 0 <= j < k ==> vs[j] == NoMatch
    ensures FirstDecisive(vs) == vs[k]
  {
    if k > 0 {
      FirstDecisiveAt(vs[1..], k - 1);
    }
  }

  /** The verdicts of the notes, in the order AnkiConnect returned them. */
  function Verdicts(exp: string, field: string, infos: seq<map<string, string>>): (vs: seq<Scan>)
    ensures |vs| == |infos|
    ensures forall j :: 0 <= j < |infos| ==> vs[j] == NoteVerdict(exp, field, infos[j])
  {
    seq(|infos|, j requires 0 <= j < |infos| => NoteVerdict(exp, field, infos[j]))
  }

  /** The loop over the note infos: the first note without the field or whose field matches decides. */
  function ScanInfos(exp: string, field: string, infos: seq<map<string, string>>): (o: Scan)
    ensures o == NoMatch <==> forall j :: 0 <= j < |infos| ==> NoteVerdict(exp, field, infos[j]) == NoMatch
    ensures o != NoMatch ==>
              exists k :: 0 <= k < |infos| && NoteVerdict(exp, field, infos[k]) == o &&
                          forall j :: 0 <= j < k ==> NoteVerdict(exp, field, infos[j]) == NoMatch
  {
    FirstDecisive(Verdicts(exp, field, infos))
  }

  function MissingFieldMessage(field: string): string
  {
    "Incorrect Field: `" + field + "`; `expression` field in config has to match Anki Note!"
  }

  function NotFoundMessage(exp: string): string
  {
    "Can't find `" + exp + "` in any decks!"
  }

  /**
    `check_note_exists`, with the search for `exp` and the note-info lookup of
    the found id given as their results. Either call failing fails the whole.
  */
  function ResolveNote(exp: string, field: string, search: Result<seq<nat>>, infos: Result<seq<map<string, string>>>): (r: Result<nat>)
    ensures search.Ok? && search.value == [] ==> r == Err("No notes found for: " + exp)
    ensures search.Err? ==> r == Err(search.error)
    ensures search.Ok? && search.value != [] && infos.Err? ==> r == Err(infos.error)
    ensures r.Ok? ==> search.Ok? && search.value != [] && r.value == search.value[|search.value| - 1]
    ensures r.Ok? <==> && search.Ok? && search.value != [] && infos.Ok?
                       && ScanInfos(exp, field, infos.value) == Matched
    ensures search.Ok? && search.value != [] && infos.Ok? && ScanInfos(exp, field, infos.value) == MissingField ==>
              r == Err(MissingFieldMessage(field))
    ensures search.Ok? && search.value != [] && infos.Ok? && ScanInfos(exp, field, infos.value) == NoMatch ==>
              r == Err(NotFoundMessage(exp))
  {
    match search
    case Err(e) => Err(e)
    case Ok(ids) =>
      match FindNoteFromWord(ids, exp)
      case Err(e) => Err(e)
      case Ok(id) =>
        match infos
        case Err(e) => Err(e)
        case Ok(ns) =>
          match ScanInfos(exp, field, ns)
          case Matched => Ok(id)
          case MissingField => Err(MissingFieldMessage(field))
          case NoMatch => Err(NotFoundMessage(exp))
  }

  /** `check_note_exists` with its loop over the note infos. */
  method CheckNoteExists(exp: string, config: ConfigJson, search: Result<seq<nat>>, infos: Result<seq<map<string, string>>>)
    returns (r: Result<nat>)
    ensures r == ResolveNote(exp, config.fields.expression, search, infos)
  {
    if search.Err? {
      return Err(search.error);
    }
    var found := FindNoteFromWord(search.value, exp);
    if found.Err? {
      return Err(found.error);
    }
    var noteId := found.value;
    if infos.Err? {
      return Err(infos.error);
    }
    var ns := infos.value;
    var field := config.fields.expression;
    ghost var vs := Verdicts(exp, field, ns);
    var i := 0;
    while i < |ns|
      invariant 0 <= i <= |ns|
      invariant FirstDecisive(vs) == FirstDecisive(vs[i..])
    {
      assert vs[i..][1..] == vs[i + 1..];
      if field !in ns[i] {
        return Err(MissingFieldMessage(field));
      }
      var html := ns[i][field];
      var text := ExtractText(html);
      if Trim(exp) == html || Trim(exp) == Trim(text) {
        return Ok(noteId);
      }
      i := i + 1;
    }
    r := Err(NotFoundMessage(exp));
  }

  /** On a field without markup the extraction is empty: only the raw value, or a blank word, matches. */
  lemma PlainFieldMatch(exp: string, html: string)
    requires '>' !in html
    ensures MatchesExpression(exp, html) <==> Trim(exp) == html || Trim(exp) == ""
  {
    assert Concat<char>([]) == "";
  }

  /** Positions before the first `>` cannot start a match, so they can be skipped. */
  lemma {:induction false} CapturesSkip(s: string, n: nat)
    requires n <= |s| && '>' !in s[..n]
    ensures Captures(s) == Captures(s[n..])
  {
    if n > 0 {
      assert s[0] == s[..n][0];
      CapturesSkip(s[1..], n - 1);
      assert s[1..][..n - 1] == s[1..n];
      assert s[1..][n - 1..] == s[n..];
    }
  }

  /** A match at the start of `s`: its group runs up to the first `<`. */
  lemma CapturesMatch(s: string, q: nat)
    requires 2 <= q < |s| && s[0] == '>' && s[q] == '<' && '<' !in s[..q]
    ensures Captures(s) == [s[1..q]] + Captures(s[q + 1..])
  {
    assert s[1] == s[..q][1];
    assert s[q] in s;
    var r := IndexOf(s, '<').value;
    assert r >= q by {
      forall j | 0 <= j < q
        ensures s[j] != '<'
      {
        assert s[j] == s[..q][j];
      }
    }
    assert r <= q by {
      forall j | 0 <= j < r
        ensures s[j] != '<'
      {
        assert s[j] == s[..r][j];
      }
    }
  }

  /** A `>` directly followed by `<` starts no match. */
  lemma CapturesEmptyTag(s: string)
    requires |s| >= 2 && s[0] == '>' && s[1] == '<'
    ensures Captures(s) == Captures(s[1..])
  {
  }

  /** Without a `<` there is nothing to capture. */
  lemma {:induction false} CapturesNoClose(s: string)
    requires '<' !in s
    ensures Captures(s) == []
  {
    if |s| >= 2 {
      assert IndexOf(s, '<').None?;
      assert forall c :: c in s[1..] ==> c in s;
      CapturesNoClose(s[1..]);
    }
  }

  /** After the last tag: the okurigana is not followed by `<`, so nothing is captured. */
  lemma RubyTailCaptures(okurigana: string)
    requires '<' !in okurigana && '>' !in okurigana
    ensures Captures("/rt></ruby>" + okurigana) == []
  {
    var y := ">" + okurigana;
    CapturesNoClose(y);
    var x := "</ruby" + y;
    CapturesAfterPrefix("</ruby", y);
    var t := ">" + x;
    assert t[1..] == x;
    CapturesEmptyTag(t);
    CapturesAfterPrefix("/rt", t);
    TailLiteral(okurigana);
  }

  lemma TailLiteral(okurigana: string)
    ensures "/rt" + (">" + ("</ruby" + (">" + okurigana))) == "/rt></ruby>" + okurigana
  {
    assert "/rt" + (">" + ("</ruby" + (">" + okurigana))) == ("/rt" + ">" + "</ruby" + ">") + okurigana;
  }

  /** One match: a `>`, a run without `<`, then `<` and the rest. */
  lemma CapturesGroupThen(group: string, rest: string)
    requires group != [] && '<' !in group
    ensures Captures(">" + group + "<" + rest) == [group] + Captures(rest)
  {
    var v := ">" + group + "<" + rest;
    CapturesMatch(v, |group| + 1);
    assert v[..|group| + 1] == ">" + group;
    assert v[1..|group| + 1] == group && v[|group| + 2..] == rest;
  }

  /** A prefix without `>` starts no match. */
  lemma CapturesAfterPrefix(prefix: string, rest: string)
    requires '>' !in prefix
    ensures Captures(prefix + rest) == Captures(rest)
  {
    var s := prefix + rest;
    CapturesSkip(s, |prefix|);
    assert s[..|prefix|] == prefix && s[|prefix|..] == rest;
  }

  /**
    Ruby markup `<ruby>base<rt>reading</rt></ruby>okurigana`: the captures are
    the base and the reading, each of which precedes a tag; the trailing
    okurigana, which no `<` follows, is not captured.
  */
  lemma RubyCaptures(base: string, reading: string, okurigana: string)
    requires base != [] && reading != []
    requires '<' !in base && '<' !in reading
    requires '<' !in okurigana && '>' !in okurigana
    ensures Captures(RubyField(base, reading, okurigana)) == [base, reading]
  {
    var w := "/rt></ruby>" + okurigana;
    RubyTailCaptures(okurigana);
    var v := ">" + reading + "<" + w;
    CapturesGroupThen(reading, w);
    CapturesAfterPrefix("rt", v);
    var t := ">" + base + "<" + ("rt" + v);
    CapturesGroupThen(base, "rt" + v);
    CapturesAfterPrefix("<ruby", t);
    RubyFieldShape(base, reading, okurigana);
  }

  /** The field text of a word written with ruby markup. */
  function RubyField(base: string, reading: string, okurigana: string): string
  {
    "<ruby>" + base + "<rt>" + reading + "</rt></ruby>" + okurigana
  }

  lemma RubyFieldShape(base: string, reading: string, okurigana: string)
    ensures RubyField(base, reading, okurigana)
         == "<ruby" + (">" + base + "<" + ("rt" + (">" + reading + "<" + ("/rt></ruby>" + okurigana))))
  {
    assert "<ruby>" == "<ruby" + ">" && "<rt>" == "<" + "rt" + ">" && "</rt></ruby>" == "<" + "/rt></ruby>";
  }

  /**
    The extracted text of a ruby-marked word is its base followed by its
    reading: `<ruby>食<rt>た</rt></ruby>べる` gives `食た`.
  */
  lemma RubyExtraction(base: string, reading: string, okurigana: string)
    requires base != [] && reading != []
    requires '<' !in base && '<' !in reading
    requires '<' !in okurigana && '>' !in okurigana
    ensures Concat(Captures(RubyField(base, reading, okurigana))) == base + reading
  {
    RubyCaptures(base, reading, okurigana);
    ConcatPair(base, reading);
  }

  lemma ConcatPair(a: string, b: string)
    ensures Concat([a, b]) == a + b
  {
    assert [a, b][..1] == [a];
    assert [a][..0] == [];
    assert Concat([a]) == Concat<char>([]) + a;
    assert Concat([a, b]) == Concat([a]) + b;
  }

  /**
    So a ruby-marked field matches the word spelled as base and reading, and
    otherwise only its raw text: the field `<ruby>食<rt>た</rt></ruby>べる`
    is found for `食た`, not for the dictionary form `食べる`.
  */
  lemma RubyMatch(base: string, reading: string, okurigana: string, exp: string)
    requires base != [] && reading != []
    requires '<' !in base && '<' !in reading
    requires '<' !in okurigana && '>' !in okurigana
    ensures var html := RubyField(base, reading, okurigana);
            MatchesExpression(exp, html) <==> Trim(exp) == html || Trim(exp) == Trim(base + reading)
  {
    RubyExtraction(base, reading, okurigana);
  }

  // ---------------------------------------------------------------------------
  // The note id of each pending sentence

  /**
    The id rule of `update_last_anki_card`: a number typed into the input box
    (trimmed) is used as the note id; otherwise the note found for the sentence's
    word, whose failure is reported with that word.
  */
  function NoteIdFor(inputText: string, resolved: Result<nat>, word: string): (r: Result<nat>)
    ensures ParseUsize(Trim(inputText)).Some? ==> r == Ok(ParseUsize(Trim(inputText)).value)
    ensures ParseUsize(Trim(inputText)).None? && resolved.Ok? ==> r == resolved
    ensures ParseUsize(Trim(inputText)).None? && resolved.Err? ==>
              r == Err("Error fetching Note: " + word + ": " + resolved.error)
  {
    match ParseUsize(Trim(inputText))
    case Some(id) => Ok(id)
    case None =>
      match resolved
      case Ok(id) => Ok(id)
      case Err(e) => Err("Error fetching Note: " + word + ": " + e)
  }

  /** Typing a note's id into the input box selects that note whatever the search finds. */
  lemma TypedIdOverrides(n: nat, resolved: Result<nat>, word: string)
    requires n < USIZE_LIMIT
    ensures NoteIdFor(NatToDecimal(n), resolved, word) == Ok(n)
  {
    var d := NatToDecimal(n);
    assert Trim(d) == d by {
      assert !IsWhitespace(d[0]) && !IsWhitespace(d[|d| - 1]);
    }
    DecimalRoundTrip(n);
  }

  /**
    The loop of `update_last_anki_card` that collects one note id per pending
    sentence, stopping at the first sentence whose id cannot be found.
    `resolved[k]` is the outcome of `check_note_exists` for sentence `k`.
  */
  method CollectNoteIds(inputText: string, pending: seq<Sentence>, resolved: seq<Result<nat>>)
    returns (ids: seq<nat>, err: Option<string>)
    requires |resolved| == |pending|
    ensures |ids| <= |pending|
    ensures forall k :: 0 <= k < |ids| ==> NoteIdFor(inputText, resolved[k], pending[k].parentWord) == Ok(ids[k])
    ensures err.None? ==> |ids| == |pending|
    ensures err.Some? ==> |ids| < |pending|
                          && NoteIdFor(inputText, resolved[|ids|], pending[|ids|].parentWord) == Err(err.value)
    ensures ParseUsize(Trim(inputText)).Some? ==>
              && err.None?
              && forall k :: 0 <= k < |ids| ==> ids[k] == ParseUsize(Trim(inputText)).value
  {
    ids := [];
    var i := 0;
    while i < |pending|
      invariant 0 <= i <= |pending| && |ids| == i
      invariant forall k :: 0 <= k < i ==> NoteIdFor(inputText, resolved[k], pending[k].parentWord) == Ok(ids[k])
    {
      var r := NoteIdFor(inputText, resolved[i], pending[i].parentWord);
      if r.Err? {
        return ids, Some(r.error);
      }
      ids := ids + [r.value];
      i := i + 1;
    }
    err := None;
  }
}

=== FILE: app.dfy ===
/**
  The application state of app.rs: the expressions of the word list with
  their example sentences, the list selections, the input box, the pending
  note updates and the help tables.
*/
module App {
  import opened Wrappers
  import opened Text
  import HelpPage

  datatype Page = Main | Help | Splice

  /** Which list has the focus; `Notes` is the pending-notes list (`SelectMode::Ntbm`). */
  datatype SelectMode = Expressions | Sentences | Input | Notes

  datatype InputMode = Normal | Search | FindId

  datatype InputBox = InputBox(text: string, charIndex: nat, mode: InputMode)

  datatype Info = Info(msg: Option<string>, found: Option<nat>)

  /**
    One example sentence. `parentWord` is the `dict_word` of the expression the
    sentence was fetched for, the only part of `parent_expression` that is read.
  */
  datatype Sentence = Sentence(
    text: string,
    audioUrl: Option<string>,
    audioData: Option<seq<bv8>>,
    imgUrl: Option<string>,
    mediaTitle: string,
    wbstLink: string,
    parentWord: string)

  /** An entry of the word list. `sentencesState` is the selection of its `ListState`. */
  datatype Expression = Expression(
    dictWord: string,
    readings: seq<string>,
    sentences: Option<seq<Sentence>>,
    sentencesState: Option<nat>,
    selectedSentence: Option<nat>,
    definitions: seq<string>,
    exactSearch: bool)

  /** `notes_to_be_created`: the sentences waiting to be written to notes, and its list selection. */
  datatype PendingNotes = PendingNotes(sentences: seq<Sentence>, selected: Option<nat>)

  /** `Sentence::from`: every argument lands unchanged in its field. */
  function SentenceFrom(text: string, audioUrl: Option<string>, audioData: Option<seq<bv8>>, imgUrl: Option<string>,
                        mediaTitle: string, wbstLink: string, parentWord: string): (s: Sentence)
    ensures s.text == text && s.audioUrl == audioUrl && s.audioData == audioData && s.imgUrl == imgUrl
    ensures s.mediaTitle == mediaTitle && s.wbstLink == wbstLink && s.parentWord == parentWord
  {
    Sentence(text, audioUrl, audioData, imgUrl, mediaTitle, wbstLink, parentWord)
  }

  /** `Expression::from`: the reading argument is not used. */
  function ExpressionFrom(dictWord: string, reading: Option<seq<string>>, sentences: Option<seq<Sentence>>): (e: Expression)
    ensures e.dictWord == dictWord && e.sentences == sentences
    ensures e.readings == [] && e.definitions == []
    ensures e.selectedSentence == Some(0) && e.sentencesState.None?
    ensures !e.exactSearch
  {
    Expression(dictWord, [], sentences, None, Some(0), [], false)
  }

  /** The label of `to_list_item` for entry `i`: `"{i}. {text}"`. */
  function ListLabel(i: nat, text: string): (item: string)
    ensures exists k ::
              && 0 < k && k + 2 <= |item|
              && IsDecimalOf(item[..k], i)
              && ParseUsize(item[..k]) == (if i < USIZE_LIMIT then Some(i) else None)
              && item[k..k + 2] == ". " && item[k + 2..] == text
  {
    var digits := NatToDecimal(i);
    var item := digits + ". " + text;
    assert item[..|digits|] == digits;
    DecimalCanonical(i);
    item
  }

  class AppState {
    var expressions: seq<Expression>
    /** The selection of `expressions_state`. */
    var expressionsState: Option<nat>
    var selectedExpression: Option<nat>
    var selectMode: SelectMode
    var selectedPage: Page
    var errMsg: Option<string>
    var info: Info
    var input: InputBox
    var notesToBeCreated: PendingNotes
    var keybinds: HelpPage.Keybinds

    /** `AppState::new`. */
    constructor ()
      ensures expressions == [] && expressionsState.None?
      ensures selectedExpression == Some(0)
      ensures selectMode == Expressions && selectedPage == Main
      ensures errMsg.None? && info == Info(None, None)
      ensures input == InputBox("", 0, Normal)
      ensures notesToBeCreated == PendingNotes([], None)
      ensures keybinds == HelpPage.NewKeybinds()
    {
      expressions := [];
      expressionsState := None;
      selectedExpression := Some(0);
      selectMode := Expressions;
      selectedPage := Main;
      errMsg := None;
      info := Info(None, None);
      input := InputBox("", 0, Normal);
      notesToBeCreated := PendingNotes([], None);
      keybinds := HelpPage.NewKeybinds();
    }
  }

  /** `update_error_msg`: the message is `"{title}: {err}"`; nothing else changes. */
  method UpdateErrorMsg(app: AppState, title: string, err: string)
    modifies app`errMsg
    ensures app.errMsg == Some(title + ": " + err)
  {
    app.errMsg := Some(title + ": " + err);
  }
}

=== FILE: cmds.dfy ===
/**
  cmds.rs: reading the selected sentence, deleting words from the word list
  and from the word file, tidying the word file, copying the selected word into
  the input box, and appending to the error log. Files are their contents: the
  word file is its sequence of lines, the error log its sequence of lines.
*/
module Cmds {
  import opened Wrappers
  import opened Text
  import opened App

  // ---------------------------------------------------------------------------
  // get_current_sentence

  /** The indices `get_current_sentence` follows are in range; the source indexes without checking. */
  predicate CurrentSentenceInRange(exps: seq<Expression>, sel: Option<nat>)
  {
    exps != [] && sel.Some? ==>
      && sel.value < |exps|
      && (exps[sel.value].selectedSentence.Some? && exps[sel.value].sentences.Some? ==>
            exps[sel.value].selectedSentence.value < |exps[sel.value].sentences.value|)
  }

  /**
    `get_current_sentence`: the selected sentence of the selected expression,
    or nothing when there are no expressions, no selected expression, no
    selected sentence or no sentences.
  */
  function GetCurrentSentence(app: AppState): (r: Option<Sentence>)
    reads app
    requires CurrentSentenceInRange(app.expressions, app.selectedExpression)
    ensures r.None? <==>
              || app.expressions == []
              || app.selectedExpression.None?
              || app.expressions[app.selectedExpression.value].selectedSentence.None?
              || app.expressions[app.selectedExpression.value].sentences.None?
    ensures r.Some? ==>
              var e := app.expressions[app.selectedExpression.value];
              r.value == e.sentences.value[e.selectedSentence.value] && r.value in e.sentences.value
  {
    if app.expressions == [] then None
    else
      match app.selectedExpression
      case None => None
      case Some(i) =>
        var e := app.expressions[i];
        match e.selectedSentence
        case None => None
        case Some(j) =>
          match e.sentences
          case None => None
          case Some(ss) => Some(ss[j])
  }

  // ---------------------------------------------------------------------------
  // delete_exps_from_app_data

  /** The expressions whose word is not on the delete list, in their order. */
  function Surviving(exps: seq<Expression>, del: seq<string>): (r: seq<Expression>)
    ensures |r| + MatchCount(exps, del) == |exps|
    ensures forall k :: 0 <= k < |r| ==> r[k].dictWord !in del
  {
    if exps == [] then []
    else (if exps[0].dictWord in del then [] else [exps[0]]) + Surviving(exps[1..], del)
  }

  /** How many expressions have a word on the delete list. */
  function MatchCount(exps: seq<Expression>, del: seq<string>): nat
  {
    if exps == [] then 0
    else (if exps[0].dictWord in del then 1 else 0) + MatchCount(exps[1..], del)
  }

  lemma {:induction false} SurvivingAppend(a: seq<Expression>, b: seq<Expression>, del: seq<string>)
    ensures Surviving(a + b, del) == Surviving(a, del) + Surviving(b, del)
  {
    if a != [] {
      SurvivingAppend(a[1..], b, del);
      var h := if a[0].dictWord in del then [] else [a[0]];
      assert (a + b)[0] == a[0];
      assert (a + b)[1..] == a[1..] + b;
      assert Surviving(a + b, del) == h + Surviving(a[1..] + b, del);
    } else {
      assert a + b == b;
    }
  }

  lemma {:induction false} SurvivingAll(s: seq<Expression>, del: seq<string>)
    requires forall j :: 0 <= j < |s| ==> s[j].dictWord !in del
    ensures Surviving(s, del) == s
  {
    if s != [] {
      SurvivingAll(s[1..], del);
    }
  }

  /** The index of the first expression whose word is on the delete list. */
  function FirstMatch(exps: seq<Expression>, del: seq<string>): (r: Option<nat>)
    ensures r.Some? ==> r.value < |exps| && exps[r.value].dictWord in del
    ensures r.Some? ==> forall j :: 0 <= j < r.value ==> exps[j].dictWord !in del
    ensures r.None? ==> forall j :: 0 <= j < |exps| ==> exps[j].dictWord !in del
  {
    if exps == [] then None
    else if exps[0].dictWord in del then Some(0)
    else
      var r := FirstMatch(exps[1..], del);
      assert forall j :: 1 <= j < |exps| ==> exps[j] == exps[1..][j - 1];
      if r.Some? then Some(r.value + 1) else None
  }

  /**
    The selection after a deletion: the entry just before the first deleted
    one, or nothing when nothing was deleted or the first entry was. That entry
    survives at the same position.
  */
  function SelectionAfterDelete(exps: seq<Expression>, del: seq<string>): (sel: Option<nat>)
    ensures sel.Some? ==> FirstMatch(exps, del) == Some(sel.value + 1)
    ensures FirstMatch(exps, del).Some? && FirstMatch(exps, del).value > 0 ==> sel.Some?
    ensures sel.Some? ==> sel.value < |Surviving(exps, del)| && Surviving(exps, del)[sel.value] == exps[sel.value]
  {
    match FirstMatch(exps, del)
    case None => None
    case Some(m) =>
      if m > 0 then
        assert exps == exps[..m] + exps[m..];
        SurvivingAppend(exps[..m], exps[m..], del);
        SurvivingAll(exps[..m], del);
        Some(m - 1)
      else
        None
  }

  /** `indexes` lists, ascending, exactly the positions of the expressions to delete. */
  predicate MatchIndexes(exps: seq<Expression>, del: seq<string>, indexes: seq<nat>)
  {
    && (forall k :: 0 <= k < |indexes| ==> indexes[k] < |exps| && exps[indexes[k]].dictWord in del)
    && (forall k, l :: 0 <= k < l < |indexes| ==> indexes[k] < indexes[l])
    && (forall j :: 0 <= j < |exps| && exps[j].dictWord in del ==> j in indexes)
  }

  /** The `filter_map` of `delete_exps_from_app_data`: the positions of the expressions to delete. */
  method CollectMatches(exps: seq<Expression>, del: seq<string>) returns (indexes: seq<nat>)
    ensures MatchIndexes(exps, del, indexes)
  {
    indexes := [];
    var i := 0;
    while i < |exps|
      invariant 0 <= i <= |exps|
      invariant forall k :: 0 <= k < |indexes| ==> indexes[k] < i && exps[indexes[k]].dictWord in del
      invariant forall k, l :: 0 <= k < l < |indexes| ==> indexes[k] < indexes[l]
      invariant forall j :: 0 <= j < i && exps[j].dictWord in del ==> j in indexes
    {
      if exps[i].dictWord in del {
        indexes := indexes + [i];
      }
      i := i + 1;
    }
  }

  /** The position up to which the backwards removal has not yet reached. */
  function RemovalBound(indexes: seq<nat>, k: nat, len: nat): nat
    requires k <= |indexes|
  {
    if k == |indexes| then len else indexes[k]
  }

  /** The list while the removal runs: untouched below the bound, filtered from it on. */
  function PartlyRemoved(exps: seq<Expression>, del: seq<string>, b: nat): seq<Expression>
    requires b <= |exps|
  {
    exps[..b] + Surviving(exps[b..], del)
  }

  /** No expression strictly between two neighbouring removal positions is to be deleted. */
  lemma GapKept(exps: seq<Expression>, del: seq<string>, indexes: seq<nat>, k: nat)
    requires MatchIndexes(exps, del, indexes) && 0 < k <= |indexes|
    ensures indexes[k - 1] < RemovalBound(indexes, k, |exps|) <= |exps|
    ensures forall j :: indexes[k - 1] < j < RemovalBound(indexes, k, |exps|) ==> exps[j].dictWord !in del
  {
    var p := RemovalBound(indexes, k, |exps|);
    var q := indexes[k - 1];
    assert k < |indexes| ==> indexes[k - 1] < indexes[k];
    forall j | q < j < p
      ensures exps[j].dictWord !in del
    {
    }
  }

  /** Removing position `q`, which is to be deleted, from the partly filtered list moves its bound down to `q`. */
  lemma RemoveAt(exps: seq<Expression>, del: seq<string>, q: nat, p: nat)
    requires q < p <= |exps| && exps[q].dictWord in del
    requires forall j :: q < j < p ==> exps[j].dictWord !in del
    ensures var cur := PartlyRemoved(exps, del, p);
            cur[..q] + cur[q + 1..] == PartlyRemoved(exps, del, q)
  {
    var mid := exps[q + 1..p];
    var tail := exps[p..];
    assert Surviving(exps[q..], del) == mid + Surviving(tail, del) by {
      assert exps[q..] == [exps[q]] + (mid + tail);
      SurvivingDropped(exps[q], mid + tail, del);
      SurvivingAppend(mid, tail, del);
      SurvivingAll(mid, del);
    }
    var cur := exps[..p] + Surviving(tail, del);
    assert cur[..q] + cur[q + 1..] == exps[..q] + (mid + Surviving(tail, del)) by {
      assert cur[..q] == exps[..q];
      assert cur[q + 1..] == mid + Surviving(tail, del);
    }
  }

  lemma SurvivingDropped(x: Expression, rest: seq<Expression>, del: seq<string>)
    requires x.dictWord in del
    ensures Surviving([x] + rest, del) == Surviving(rest, del)
  {
    assert ([x] + rest)[1..] == rest;
  }

  /** Once every index is removed the list is filtered, and the lowest index is the first match. */
  lemma RemovalDone(exps: seq<Expression>, del: seq<string>, indexes: seq<nat>)
    requires MatchIndexes(exps, del, indexes)
    ensures RemovalBound(indexes, 0, |exps|) <= |exps|
    ensures PartlyRemoved(exps, del, RemovalBound(indexes, 0, |exps|)) == Surviving(exps, del)
    ensures indexes != [] ==> FirstMatch(exps, del) == Some(indexes[0])
    ensures indexes == [] ==> FirstMatch(exps, del).None?
  {
    var b := RemovalBound(indexes, 0, |exps|);
    assert forall j :: 0 <= j < b ==> exps[j].dictWord !in del;
    assert exps == exps[..b] + exps[b..];
    SurvivingAppend(exps[..b], exps[b..], del);
    SurvivingAll(exps[..b], del);
    var f := FirstMatch(exps, del);
    assert f.Some? ==> f.value in indexes;
  }

  /**
    `delete_exps_from_app_data`: collects the indexes of the expressions whose
    word is on the delete list, removes them from the highest index down, and
    selects the entry before the first removed one.
  */
  method DeleteExpsFromAppData(app: AppState, del: seq<string>)
    modifies app`expressions, app`selectedExpression, app`expressionsState
    ensures app.expressions == Surviving(old(app.expressions), del)
    ensures app.selectedExpression == SelectionAfterDelete(old(app.expressions), del)
    ensures app.expressionsState == app.selectedExpression
  {
    var exps := app.expressions;
    var indexes := CollectMatches(exps, del);
    // Sorted from the highest index down: the ascending indexes walked from the back.
    var k := |indexes|;
    while k > 0
      invariant 0 <= k <= |indexes|
      invariant RemovalBound(indexes, k, |exps|) <= |exps|
      invariant app.expressions == PartlyRemoved(exps, del, RemovalBound(indexes, k, |exps|))
    {
      GapKept(exps, del, indexes, k);
      var q := indexes[k - 1];
      RemoveAt(exps, del, q, RemovalBound(indexes, k, |exps|));
      app.expressions := app.expressions[..q] + app.expressions[q + 1..];
      k := k - 1;
    }
    RemovalDone(exps, del, indexes);
    var finalIndex: Option<nat> := None;
    if indexes != [] && indexes[0] > 0 {
      finalIndex := Some(indexes[0] - 1);
    }
    app.selectedExpression := finalIndex;
    app.expressionsState := finalIndex;
  }

  /** A deletion keeps every expression whose word is not on the delete list, and only those. */
  lemma {:induction false} SurvivingExactly(exps: seq<Expression>, del: seq<string>, e: Expression)
    ensures e in Surviving(exps, del) <==> e in exps && e.dictWord !in del
  {
    if exps != [] {
      SurvivingExactly(exps[1..], del, e);
      assert exps == [exps[0]] + exps[1..];
    }
  }

  // ---------------------------------------------------------------------------
  // delete_words_from_file

  /**
    One line of the word file after `delete_words_from_file`: each word of the
    delete list, in list order, removed wherever it occurs as a substring.
  */
  function RemoveWords(line: string, del: seq<string>): (r: string)
    ensures |r| <= |line|
    ensures (forall k :: 0 <= k < |del| ==> !Contains(line, del[k])) ==> r == line
  {
    if del == [] then line
    else RemoveAll(RemoveWords(line, del[..|del| - 1]), del[|del| - 1])
  }

  /**
    Deleting with the list `a + b` is deleting with `a` and then with `b`:
    the words are applied one after another in list order.
  */
  lemma {:induction false} RemoveWordsAppend(line: string, a: seq<string>, b: seq<string>)
    ensures RemoveWords(line, a + b) == RemoveWords(RemoveWords(line, a), b)
    decreases |b|
  {
    if b == [] {
      assert a + b == a;
    } else {
      var init, w := b[..|b| - 1], b[|b| - 1];
      SnocSplit(a, b, init, w);
      RemoveWordsLast(line, a + b, a + init, w);
      RemoveWordsLast(RemoveWords(line, a), b, init, w);
      RemoveWordsAppend(line, a, init);
    }
  }

  /** The last word of the list is applied last. */
  lemma RemoveWordsLast(line: string, del: seq<string>, init: seq<string>, w: string)
    requires del == init + [w]
    ensures RemoveWords(line, del) == RemoveAll(RemoveWords(line, init), w)
  {
    assert del[..|del| - 1] == init;
  }

  lemma SnocSplit<T>(a: seq<T>, b: seq<T>, init: seq<T>, w: T)
    requires b != [] && init == b[..|b| - 1] && w == b[|b| - 1]
    ensures b == init + [w] && a + b == (a + init) + [w]
  {
    assert b == init + [w];
  }

  /** Every line of the word file rewritten. */
  function Rewritten(lines: seq<string>, del: seq<string>): (out: seq<string>)
    ensures |out| == |lines|
    ensures forall k :: 0 <= k < |lines| ==> out[k] == RemoveWords(lines[k], del)
  {
    seq(|lines|, k requires 0 <= k < |lines| => RemoveWords(lines[k], del))
  }

  /** The nested loops of `delete_words_from_file` that rewrite the word file line by line. */
  method RewriteLines(lines: seq<string>, del: seq<string>) returns (out: seq<string>)
    ensures out == Rewritten(lines, del)
  {
    out := [];
    var i := 0;
    while i < |lines|
      invariant 0 <= i <= |lines|
      invariant out == Rewritten(lines[..i], del)
    {
      var line := lines[i];
      var j := 0;
      while j < |del|
        invariant 0 <= j <= |del|
        invariant line == RemoveWords(lines[i], del[..j])
      {
        assert del[..j + 1][..j] == del[..j];
        if Contains(line, del[j]) {
          line := RemoveAll(line, del[j]);
        }
        j := j + 1;
      }
      assert del[..|del|] == del;
      out := out + [line];
      i := i + 1;
    }
    assert lines[..|lines|] == lines;
  }

  // ---------------------------------------------------------------------------
  // clean_up_words_file

  /** All whitespace-separated tokens of the file, line after line. */
  function AllTokens(lines: seq<string>): (ws: seq<string>)
    ensures forall k :: 0 <= k < |ws| ==> IsWord(ws[k])
  {
    if lines == [] then [] else AllTokens(lines[..|lines| - 1]) + Tokens(lines[|lines| - 1])
  }

  /** The file `clean_up_words_file` writes: one line of the tokens joined by single spaces. */
  function CleanedFile(lines: seq<string>): (file: seq<string>)
    ensures |file| == 1
  {
    [Join(AllTokens(lines), " ")]
  }

  /** `clean_up_words_file`, with its loops that collect the tokens. */
  method CleanUpWordsFile(lines: seq<string>) returns (file: seq<string>)
    ensures file == CleanedFile(lines)
  {
    var words: seq<string> := [];
    var i := 0;
    while i < |lines|
      invariant 0 <= i <= |lines|
      invariant words == AllTokens(lines[..i])
    {
      var ts := Tokens(lines[i]);
      var j := 0;
      while j < |ts|
        invariant 0 <= j <= |ts|
        invariant words == AllTokens(lines[..i]) + ts[..j]
      {
        words := words + [ts[j]];
        j := j + 1;
        assert ts[..j] == ts[..j - 1] + [ts[j - 1]];
      }
      assert ts[..|ts|] == ts;
      assert lines[..i + 1][..i] == lines[..i];
      i := i + 1;
    }
    assert lines[..|lines|] == lines;
    file := [Join(words, " ")];
  }

  /** Tidying keeps the tokens of the file, in order. */
  lemma CleanedFileTokens(lines: seq<string>)
    ensures AllTokens(CleanedFile(lines)) == AllTokens(lines)
  {
    var file := CleanedFile(lines);
    assert file[..0] == [];
    TokensOfJoin(AllTokens(lines));
  }

  /** Tidying a tidy file changes nothing. */
  lemma CleanedFileIdempotent(lines: seq<string>)
    ensures CleanedFile(CleanedFile(lines)) == CleanedFile(lines)
  {
    CleanedFileTokens(lines);
  }

  /**
    `delete_words_from_file`: the word file with the words removed and then
    tidied, and the expressions with those words dropped from the list.
  */
  method DeleteWordsFromFile(app: AppState, lines: seq<string>, del: seq<string>) returns (file: seq<string>)
    modifies app`expressions, app`selectedExpression, app`expressionsState
    ensures file == CleanedFile(Rewritten(lines, del))
    ensures app.expressions == Surviving(old(app.expressions), del)
    ensures app.selectedExpression == SelectionAfterDelete(old(app.expressions), del)
    ensures app.expressionsState == app.selectedExpression
  {
    var rewritten := RewriteLines(lines, del);
    DeleteExpsFromAppData(app, del);
    file := CleanUpWordsFile(rewritten);
  }

  /**
    Deletion removes substrings, not tokens: deleting 猫 from `犬 猫 魚` leaves
    two spaces, which tidying collapses, and deleting it from `子猫` leaves `子`.
  */
  lemma SubstringDeletion()
    ensures RemoveWords("犬 猫 魚", ["猫"]) == "犬  魚"
    ensures RemoveWords("子猫", ["猫"]) == "子"
  {
    assert ["猫"][..0] == [];
  }

  /** Tidying then collapses the gap the deletion left. */
  lemma TidyAfterDeletion()
    ensures CleanedFile(["犬  魚"]) == ["犬 魚"]
  {
    var line := "犬  魚";
    assert ["犬  魚"][..0] == [];
    assert Tokens(line) == ["犬", "魚"] by {
      assert line == "犬" + "  " + "魚";
      TokensSeparator("犬", "  ", "魚");
      TokensOfJoin(["魚"]);
    }
    assert Join(["犬", "魚"], " ") == "犬 魚";
  }

  // ---------------------------------------------------------------------------
  // handle_copy_to_input

  /**
    `handle_copy_to_input`: appends the trimmed selected word to the input text,
    focuses the input box and puts the cursor at the text's byte length minus
    one. The source subtracts without checking, so the new text must not be
    empty.
  */
  method HandleCopyToInput(app: AppState)
    modifies app`selectMode, app`input
    requires app.selectedExpression.Some? ==>
               app.selectedExpression.value < |app.expressions|
               && app.input.text + Trim(app.expressions[app.selectedExpression.value].dictWord) != []
    ensures app.selectedExpression.None? ==> app.selectMode == old(app.selectMode) && app.input == old(app.input)
    ensures app.selectedExpression.Some? ==>
              && app.selectMode == Input
              && app.input.text == old(app.input.text) + Trim(app.expressions[app.selectedExpression.value].dictWord)
              && app.input.charIndex + 1 == Utf8Len(app.input.text)
              && app.input.mode == old(app.input.mode)
  {
    if app.selectedExpression.Some? {
      var word := app.expressions[app.selectedExpression.value].dictWord;
      app.selectMode := Input;
      var text := app.input.text + Trim(word);
      app.input := app.input.(text := text, charIndex := Utf8Len(text) - 1);
    }
  }

  // ---------------------------------------------------------------------------
  // write_to_errs_log

  /** `write_to_errs_log`: one line per message appended, in order, after the existing log. */
  method WriteToErrsLog(log: seq<string>, errs: seq<string>) returns (newLog: seq<string>)
    ensures |newLog| == |log| + |errs|
    ensures newLog[..|log|] == log
    ensures forall k :: 0 <= k < |errs| ==> newLog[|log| + k] == errs[k]
  {
    newLog := log;
    var i := 0;
    while i < |errs|
      invariant 0 <= i <= |errs|
      invariant newLog == log + errs[..i]
    {
      newLog := newLog + [errs[i]];
      i := i + 1;
    }
  }
}

=== FILE: cursor.dfy ===
/**
  The wrap-around steps that every list cursor of keybinds.rs takes: the
  notes list, the sentence list, the expression list and the help sections.
*/
module Cursor {

  /** `n.saturating_sub(1)` on `usize`. */
  function SaturatingPred(n: nat): (m: nat)
    ensures n > 0 ==> m + 1 == n
    ensures n == 0 ==> m == 0
  {
    if n == 0 then 0 else n - 1
  }

  /**
    `if i == len - 1 { 0 } else { i + 1 }`: one entry down, from the last
    entry back to the first. `len - 1` panics on an empty list, hence the
    precondition.
  */
  function StepNext(i: nat, len: nat): (j: nat)
    requires len > 0
    ensures i < len ==> j < len && j == (i + 1) % len
    ensures i >= len ==> j == i + 1
  {
    if i == len - 1 then 0 else i + 1
  }

  /**
    `if i == 0 { len - 1 } else { i - 1 }`: one entry up, from the first entry
    to the last. Where the source subtracts without saturating, its callers
    know the list is not empty, so the saturating form gives the same value.
  */
  function StepPrev(i: nat, len: nat): (j: nat)
    ensures i > 0 ==> j == i - 1
    ensures i < len ==> j < len && j == (i + len - 1) % len
  {
    if i == 0 then
      assert i < len ==> (i + len - 1) % len == len - 1 by {
        if i < len { ModBelow(len - 1, len); }
      }
      SaturatingPred(len)
    else
      assert i < len ==> (i + len - 1) % len == i - 1 by {
        if i < len { ModWrap(i - 1, len); }
      }
      i - 1
  }

  lemma ModBelow(x: nat, n: nat)
    requires x < n
    ensures x % n == x
  {
  }

  lemma ModWrap(x: nat, n: nat)
    requires x < n
    ensures (x + n) % n == x
  {
    ModBelow(x, n);
  }

  /** Stepping down and then up returns to the same entry. */
  lemma PrevUndoesNext(i: nat, len: nat)
    requires i < len
    ensures StepPrev(StepNext(i, len), len) == i
  {
  }

  /** Stepping up and then down returns to the same entry. */
  lemma NextUndoesPrev(i: nat, len: nat)
    requires i < len
    ensures StepNext(StepPrev(i, len), len) == i
  {
  }
}

=== FILE: fetch.dfy ===
/**
  fetch.rs: turning the decoded responses of the two sentence providers into
  sentences of an expression, merging the dictionary readings and definitions
  of Immersion Kit, and filling the audio cache of a sentence. The HTTP
  requests are not modelled: each response arrives as a `Result` argument,
  `Err` standing for a failed request or an undecodable body.
*/
module Fetch {
  import opened Wrappers
  import opened Text
  import opened App

  /** The two fields of a Massif result that are read: its text and the title of its sample source. */
  datatype MassifResult = MassifResult(text: string, sourceTitle: string)

  /** One dictionary section of an Immersion Kit item. */
  datatype Glossary = Glossary(glossaryList: seq<string>, reading: string)

  /** The fields of an Immersion Kit example that are read. */
  datatype Example = Example(deckName: string, imageUrl: string, sentence: string, soundUrl: string)

  /** One element of the Immersion Kit `data` list. */
  datatype IkItem = IkItem(dictionary: seq<seq<Glossary>>, examples: seq<Example>)

  const MASSIF_LINK := "https://massif.la/ja/search?q="
  const IK_LINK := "https://www.immersionkit.com/dictionary?keyword="
  const NO_SENTENCES := "0 Sentences Found!"
  const NO_AUDIO_URL := "Audio URL not found"

  // ---------------------------------------------------------------------------
  // Massif

  /** The Massif conversion: one sentence per result, in order, with neither audio nor image. */
  function MassifSentences(results: seq<MassifResult>, parentWord: string): (ss: seq<Sentence>)
    ensures |ss| == |results|
    ensures forall k :: 0 <= k < |ss| ==>
              && ss[k].text == results[k].text
              && ss[k].audioUrl.None? && ss[k].audioData.None? && ss[k].imgUrl.None?
              && ss[k].mediaTitle == results[k].sourceTitle
              && ss[k].wbstLink == MASSIF_LINK + results[k].text
              && ss[k].parentWord == parentWord
  {
    seq(|results|, k requires 0 <= k < |results| =>
      SentenceFrom(results[k].text, None, None, None, results[k].sourceTitle, MASSIF_LINK + results[k].text, parentWord))
  }

  /**
    What `fetch_massif_api` returns and leaves in the expression list: a failed
    request or an empty result list changes nothing; otherwise the converted
    sentences replace those of expression `index` and nothing else changes.
  */
  function MassifOutcome(exps: seq<Expression>, index: nat, parentWord: string, response: Result<seq<MassifResult>>)
    : (out: (Result<()>, seq<Expression>))
    requires index < |exps|
    ensures response.Err? ==> out == (Err(response.error), exps)
    ensures response == Ok([]) ==> out == (Err(NO_SENTENCES), exps)
    ensures out.0.Ok? <==> response.Ok? && response.value != []
    ensures out.0.Ok? ==>
              out.1 == exps[index := exps[index].(sentences := Some(MassifSentences(response.value, parentWord)))]
  {
    match response
    case Err(e) => (Err(e), exps)
    case Ok(results) =>
      var sentences := MassifSentences(results, parentWord);
      if sentences == [] then (Err(NO_SENTENCES), exps)
      else (Ok(()), exps[index := exps[index].(sentences := Some(sentences))])
  }

  /** `fetch_massif_api` for expression `index`, with `parent` the expression the search was made for. */
  method FetchMassifApi(app: AppState, parent: Expression, index: nat, response: Result<seq<MassifResult>>)
    returns (r: Result<()>)
    requires index < |app.expressions|
    modifies app`expressions
    ensures (r, app.expressions) == MassifOutcome(old(app.expressions), index, parent.dictWord, response)
  {
    if response.Err? {
      return Err(response.error);
    }
    var sentences := MassifSentences(response.value, parent.dictWord);
    if sentences == [] {
      return Err(NO_SENTENCES);
    }
    app.expressions := app.expressions[index := app.expressions[index].(sentences := Some(sentences))];
    r := Ok(());
  }

  /** `fetch_massif_sentences`: a Massif search for the selected expression, if any. */
  function MassifFallback(exps: seq<Expression>, sel: Option<nat>, response: Result<seq<MassifResult>>)
    : (out: (Result<()>, seq<Expression>))
    requires sel.Some? ==> sel.value < |exps|
    ensures sel.None? ==> out == (Ok(()), exps)
    ensures sel.Some? ==> out == MassifOutcome(exps, sel.value, exps[sel.value].dictWord, response)
  {
    if sel.None? then (Ok(()), exps)
    else MassifOutcome(exps, sel.value, exps[sel.value].dictWord, response)
  }

  method FetchMassifSentences(app: AppState, response: Result<seq<MassifResult>>) returns (r: Result<()>)
    requires app.selectedExpression.Some? ==> app.selectedExpression.value < |app.expressions|
    modifies app`expressions
    ensures (r, app.expressions) == MassifFallback(old(app.expressions), app.selectedExpression, response)
  {
    r := Ok(());
    if app.selectedExpression.Some? {
      var i := app.selectedExpression.value;
      r := FetchMassifApi(app, app.expressions[i], i, response);
    }
  }

  // ---------------------------------------------------------------------------
  // Immersion Kit: examples

  /** An empty image URL means there is no image. */
  function ImageUrl(url: string): (r: Option<string>)
    ensures r.None? <==> url == []
    ensures r.Some? ==> r.value == url
  {
    if url != [] then Some(url) else None
  }

  /** The deck filter: with no priority decks every example is kept, otherwise those of a listed deck. */
  predicate Kept(priority: seq<string>, ex: Example)
  {
    priority == [] || ex.deckName in priority
  }

  /** The examples the deck filter keeps, in their order. */
  function Filter(priority: seq<string>, examples: seq<Example>): (r: seq<Example>)
    ensures |r| <= |examples|
    ensures forall ex :: ex in r <==> ex in examples && Kept(priority, ex)
    ensures priority == [] ==> r == examples
    decreases |examples|
  {
    if examples == [] then []
    else
      var init := examples[..|examples| - 1];
      var last := examples[|examples| - 1];
      assert examples == init + [last];
      Filter(priority, init) + (if Kept(priority, last) then [last] else [])
  }

  /** One example is kept alone or dropped. */
  lemma FilterSingle(priority: seq<string>, ex: Example)
    ensures Filter(priority, [ex]) == if Kept(priority, ex) then [ex] else []
  {
    assert [ex][..0] == [];
  }

  /** The filter keeps order and multiplicity: it distributes over concatenation. */
  lemma {:induction false} FilterAppend(priority: seq<string>, a: seq<Example>, b: seq<Example>)
    ensures Filter(priority, a + b) == Filter(priority, a) + Filter(priority, b)
    decreases |b|
  {
    if b == [] {
      assert a + b == a;
    } else {
      var init := b[..|b| - 1];
      var last := b[|b| - 1];
      assert (a + b)[..|a + b| - 1] == a + init;
      assert (a + b)[|a + b| - 1] == last;
      assert b[..|b| - 1] == init;
      FilterAppend(priority, a, init);
    }
  }

  /** The sentence made from a kept example: its sound URL as audio, its deck as media title. */
  function IkSentence(ex: Example, parentWord: string): (s: Sentence)
    ensures s.text == ex.sentence && s.audioUrl == Some(ex.soundUrl) && s.audioData.None?
    ensures s.imgUrl.None? <==> ex.imageUrl == []
    ensures s.mediaTitle == ex.deckName && s.wbstLink == IK_LINK + ex.sentence
    ensures s.parentWord == parentWord
  {
    SentenceFrom(ex.sentence, Some(ex.soundUrl), None, ImageUrl(ex.imageUrl), ex.deckName, IK_LINK + ex.sentence, parentWord)
  }

  /** The `filter_map` over one item's examples. */
  function ItemSentences(priority: seq<string>, examples: seq<Example>, parentWord: string): (ss: seq<Sentence>)
    ensures |ss| <= |examples|
    ensures forall ex :: ex in examples && Kept(priority, ex) ==> IkSentence(ex, parentWord) in ss
    ensures forall s :: s in ss ==> priority == [] || s.mediaTitle in priority
    ensures priority == [] ==> |ss| == |examples|
    ensures |ss| == |Filter(priority, examples)|
    ensures forall k :: 0 <= k < |ss| ==> ss[k] == IkSentence(Filter(priority, examples)[k], parentWord)
  {
    var kept := Filter(priority, examples);
    var ss := seq(|kept|, k requires 0 <= k < |kept| => IkSentence(kept[k], parentWord));
    assert forall ex :: ex in kept ==> IkSentence(ex, parentWord) in ss by {
      forall ex | ex in kept ensures IkSentence(ex, parentWord) in ss {
        var k :| 0 <= k < |kept| && kept[k] == ex;
        assert ss[k] == IkSentence(ex, parentWord);
      }
    }
    assert forall s :: s in ss ==> priority == [] || s.mediaTitle in priority by {
      forall s | s in ss ensures priority == [] || s.mediaTitle in priority {
        var k :| 0 <= k < |ss| && ss[k] == s;
        assert kept[k] in kept;
      }
    }
    ss
  }

  /** Only the last item's sentences survive the loop of `fetch_ik_api`. */
  function LastSentences(priority: seq<string>, items: seq<IkItem>, parentWord: string): (ss: seq<Sentence>)
    ensures items == [] ==> ss == []
    ensures items != [] ==> forall s :: s in ss <==>
              exists ex :: ex in items[|items| - 1].examples && Kept(priority, ex) && s == IkSentence(ex, parentWord)
  {
    if items == [] then []
    else
      ItemSentencesFrom(priority, items[|items| - 1].examples, parentWord);
      ItemSentences(priority, items[|items| - 1].examples, parentWord)
  }

  /** After one more item, only that item's sentences are left. */
  lemma LastSentencesStep(priority: seq<string>, items: seq<IkItem>, i: nat, parentWord: string)
    requires i < |items|
    ensures LastSentences(priority, items[..i + 1], parentWord) == ItemSentences(priority, items[i].examples, parentWord)
  {
    assert items[..i + 1][i] == items[i];
  }

  /** Every sentence of an item comes from one of its kept examples. */
  lemma ItemSentencesFrom(priority: seq<string>, examples: seq<Example>, parentWord: string)
    ensures forall s :: s in ItemSentences(priority, examples, parentWord) ==>
              exists ex :: ex in examples && Kept(priority, ex) && s == IkSentence(ex, parentWord)
  {
    var ss := ItemSentences(priority, examples, parentWord);
    var kept := Filter(priority, examples);
    forall s | s in ss
      ensures exists ex :: ex in examples && Kept(priority, ex) && s == IkSentence(ex, parentWord)
    {
      var k :| 0 <= k < |ss| && ss[k] == s;
      assert kept[k] in kept;
    }
  }

  // ---------------------------------------------------------------------------
  // Immersion Kit: dictionary merge

  /** Every dictionary section of every item, in order. */
  function ItemSections(items: seq<IkItem>): seq<Glossary>
  {
    if items == [] then [] else ItemSections(items[..|items| - 1]) + Concat(items[|items| - 1].dictionary)
  }

  /** The glossary entries of the sections, in order: what `extend` adds to the definitions. */
  function Definitions(sections: seq<Glossary>): (ds: seq<string>)
    ensures forall d :: d in ds ==> exists g :: g in sections && d in g.glossaryList
  {
    if sections == [] then []
    else
      var init := sections[..|sections| - 1];
      assert forall g :: g in init ==> g in sections;
      Definitions(init) + sections[|sections| - 1].glossaryList
  }

  /** Every glossary entry of every section is among the definitions added. */
  lemma {:induction false} DefinitionsContain(sections: seq<Glossary>)
    ensures forall g, d :: g in sections && d in g.glossaryList ==> d in Definitions(sections)
  {
    if sections != [] {
      var init := sections[..|sections| - 1];
      assert sections == init + [sections[|sections| - 1]];
      DefinitionsContain(init);
    }
  }

  /**
    The readings `push`ed: those absent from the `snapshot` (the readings the
    expression had before the request) and different from the word itself.
  */
  function NewReadings(sections: seq<Glossary>, snapshot: seq<string>, word: string): (rs: seq<string>)
    ensures |rs| <= |sections|
    ensures forall k :: 0 <= k < |rs| ==> rs[k] !in snapshot && rs[k] != word
  {
    if sections == [] then []
    else
      var last := sections[|sections| - 1];
      NewReadings(sections[..|sections| - 1], snapshot, word) + (if last.reading !in snapshot && last.reading != word then [last.reading] else [])
  }

  /**
    A reading is added exactly when some section carries it and it is neither
    in the snapshot nor the word itself.
  */
  lemma {:induction false} NewReadingsExactly(sections: seq<Glossary>, snapshot: seq<string>, word: string)
    ensures forall r :: r in NewReadings(sections, snapshot, word) <==>
              r !in snapshot && r != word && exists g :: g in sections && g.reading == r
  {
    if sections != [] {
      var init := sections[..|sections| - 1];
      var last := sections[|sections| - 1];
      assert sections == init + [last];
      NewReadingsExactly(init, snapshot, word);
    }
  }

  /** One more dictionary list adds its sections' definitions and readings after the others. */
  lemma ConcatStep(dictionary: seq<seq<Glossary>>, j: nat, snapshot: seq<string>, word: string)
    requires j < |dictionary|
    ensures Definitions(Concat(dictionary[..j + 1])) == Definitions(Concat(dictionary[..j])) + Definitions(dictionary[j])
    ensures NewReadings(Concat(dictionary[..j + 1]), snapshot, word) ==
              NewReadings(Concat(dictionary[..j]), snapshot, word) + NewReadings(dictionary[j], snapshot, word)
  {
    assert dictionary[..j + 1][..j] == dictionary[..j];
    DefinitionsAppend(Concat(dictionary[..j]), dictionary[j]);
    NewReadingsAppend(Concat(dictionary[..j]), dictionary[j], snapshot, word);
  }

  /** One more item adds the definitions and readings of its dictionary after the others. */
  lemma ItemStep(items: seq<IkItem>, i: nat, snapshot: seq<string>, word: string)
    requires i < |items|
    ensures Definitions(ItemSections(items[..i + 1])) == Definitions(ItemSections(items[..i])) + Definitions(Concat(items[i].dictionary))
    ensures NewReadings(ItemSections(items[..i + 1]), snapshot, word) ==
              NewReadings(ItemSections(items[..i]), snapshot, word) + NewReadings(Concat(items[i].dictionary), snapshot, word)
  {
    assert items[..i + 1][..i] == items[..i];
    DefinitionsAppend(ItemSections(items[..i]), Concat(items[i].dictionary));
    NewReadingsAppend(ItemSections(items[..i]), Concat(items[i].dictionary), snapshot, word);
  }

  /** The loop invariant of `MergeItems` carried over one item. */
  lemma MergeStep(items: seq<IkItem>, i: nat, snapshot: seq<string>, word: string,
                  defs0: seq<string>, readings0: seq<string>, defs: seq<string>, readings: seq<string>,
                  defs': seq<string>, readings': seq<string>)
    requires i < |items|
    requires defs == defs0 + Definitions(ItemSections(items[..i]))
    requires readings == readings0 + NewReadings(ItemSections(items[..i]), snapshot, word)
    requires defs' == defs + Definitions(Concat(items[i].dictionary))
    requires readings' == readings + NewReadings(Concat(items[i].dictionary), snapshot, word)
    ensures defs' == defs0 + Definitions(ItemSections(items[..i + 1]))
    ensures readings' == readings0 + NewReadings(ItemSections(items[..i + 1]), snapshot, word)
  {
    ItemStep(items, i, snapshot, word);
    Regroup(defs0, Definitions(ItemSections(items[..i])), Definitions(Concat(items[i].dictionary)),
            defs, defs', Definitions(ItemSections(items[..i + 1])));
    Regroup(readings0, NewReadings(ItemSections(items[..i]), snapshot, word),
            NewReadings(Concat(items[i].dictionary), snapshot, word),
            readings, readings', NewReadings(ItemSections(items[..i + 1]), snapshot, word));
  }

  /** A loop that appends `b` and then `c` to `a` has appended `b + c`. */
  lemma Regroup<T>(a: seq<T>, b: seq<T>, c: seq<T>, ab: seq<T>, abc: seq<T>, bc: seq<T>)
    requires ab == a + b && abc == ab + c && bc == b + c
    ensures abc == a + bc
  {
  }

  lemma {:induction false} DefinitionsAppend(a: seq<Glossary>, b: seq<Glossary>)
    ensures Definitions(a + b) == Definitions(a) + Definitions(b)
    decreases |b|
  {
    if b != [] {
      var init := b[..|b| - 1];
      assert (a + b)[..|a + b| - 1] == a + init;
      DefinitionsAppend(a, init);
    } else {
      assert a + b == a;
    }
  }

  lemma {:induction false} NewReadingsAppend(a: seq<Glossary>, b: seq<Glossary>, snapshot: seq<string>, word: string)
    ensures NewReadings(a + b, snapshot, word) == NewReadings(a, snapshot, word) + NewReadings(b, snapshot, word)
    decreases |b|
  {
    if b != [] {
      var init := b[..|b| - 1];
      assert (a + b)[..|a + b| - 1] == a + init;
      NewReadingsAppend(a, init, snapshot, word);
    } else {
      assert a + b == a;
    }
  }

  /**
    The readings are checked against the snapshot, not against the list being
    grown, so a reading that occurs twice in one response is pushed twice.
  */
  lemma RepeatedReadingPushedTwice(g: Glossary, snapshot: seq<string>, word: string)
    requires g.reading !in snapshot && g.reading != word
    ensures NewReadings([g, g], snapshot, word) == [g.reading, g.reading]
  {
    assert [g, g][..1] == [g];
    assert [g][..0] == [];
    assert NewReadings([g], snapshot, word) == [g.reading];
  }

  /** The expression after the dictionary merge of `fetch_ik_api`. */
  function Merged(e: Expression, snapshot: seq<string>, items: seq<IkItem>): (m: Expression)
    ensures m.dictWord == e.dictWord && m.sentences == e.sentences
    ensures m.sentencesState == e.sentencesState && m.selectedSentence == e.selectedSentence
    ensures m.exactSearch == e.exactSearch
    ensures m.definitions == e.definitions + Definitions(ItemSections(items))
    ensures m.readings == e.readings + NewReadings(ItemSections(items), snapshot, e.dictWord)
    ensures |m.readings| >= |e.readings| && m.readings[..|e.readings|] == e.readings
    ensures forall r :: r in m.readings[|e.readings|..] ==> r !in snapshot && r != e.dictWord
  {
    var added := NewReadings(ItemSections(items), snapshot, e.dictWord);
    assert (e.readings + added)[|e.readings|..] == added;
    NewReadingsExactly(ItemSections(items), snapshot, e.dictWord);
    e.(definitions := e.definitions + Definitions(ItemSections(items)), readings := e.readings + added)
  }

  /** The inner loops of `fetch_ik_api` over the sections of one dictionary list. */
  method MergeSections(definitions: seq<string>, readings: seq<string>, sections: seq<Glossary>,
                       snapshot: seq<string>, word: string)
    returns (definitions': seq<string>, readings': seq<string>)
    ensures definitions' == definitions + Definitions(sections)
    ensures readings' == readings + NewReadings(sections, snapshot, word)
  {
    definitions', readings' := definitions, readings;
    var k := 0;
    while k < |sections|
      invariant 0 <= k <= |sections|
      invariant definitions' == definitions + Definitions(sections[..k])
      invariant readings' == readings + NewReadings(sections[..k], snapshot, word)
    {
      assert sections[..k + 1][..k] == sections[..k];
      definitions' := definitions' + sections[k].glossaryList;
      if sections[k].reading !in snapshot && sections[k].reading != word {
        readings' := readings' + [sections[k].reading];
      }
      k := k + 1;
    }
    assert sections[..|sections|] == sections;
  }

  /** The middle loop of `fetch_ik_api` over the dictionary lists of one item. */
  method MergeDictionary(definitions: seq<string>, readings: seq<string>, dictionary: seq<seq<Glossary>>,
                         snapshot: seq<string>, word: string)
    returns (definitions': seq<string>, readings': seq<string>)
    ensures definitions' == definitions + Definitions(Concat(dictionary))
    ensures readings' == readings + NewReadings(Concat(dictionary), snapshot, word)
  {
    definitions', readings' := definitions, readings;
    var j := 0;
    while j < |dictionary|
      invariant 0 <= j <= |dictionary|
      invariant definitions' == definitions + Definitions(Concat(dictionary[..j]))
      invariant readings' == readings + NewReadings(Concat(dictionary[..j]), snapshot, word)
    {
      ConcatStep(dictionary, j, snapshot, word);
      var defs, rs := MergeSections(definitions', readings', dictionary[j], snapshot, word);
      Regroup(definitions, Definitions(Concat(dictionary[..j])), Definitions(dictionary[j]),
              definitions', defs, Definitions(Concat(dictionary[..j + 1])));
      Regroup(readings, NewReadings(Concat(dictionary[..j]), snapshot, word), NewReadings(dictionary[j], snapshot, word),
              readings', rs, NewReadings(Concat(dictionary[..j + 1]), snapshot, word));
      definitions', readings' := defs, rs;
      j := j + 1;
    }
    assert dictionary[..|dictionary|] == dictionary;
  }

  /**
    The loop of `fetch_ik_api` over the response items: every item's
    dictionary is merged, and the sentences of the last item are kept.
  */
  method MergeItems(e: Expression, snapshot: seq<string>, priority: seq<string>, items: seq<IkItem>, parentWord: string)
    returns (definitions: seq<string>, readings: seq<string>, sentences: seq<Sentence>)
    ensures definitions == e.definitions + Definitions(ItemSections(items))
    ensures readings == e.readings + NewReadings(ItemSections(items), snapshot, e.dictWord)
    ensures sentences == LastSentences(priority, items, parentWord)
  {
    definitions, readings := e.definitions, e.readings;
    sentences := [];
    var i := 0;
    while i < |items|
      invariant 0 <= i <= |items|
      invariant definitions == e.definitions + Definitions(ItemSections(items[..i]))
      invariant readings == e.readings + NewReadings(ItemSections(items[..i]), snapshot, e.dictWord)
      invariant sentences == LastSentences(priority, items[..i], parentWord)
    {
      var definitions', readings' := MergeDictionary(definitions, readings, items[i].dictionary, snapshot, e.dictWord);
      MergeStep(items, i, snapshot, e.dictWord, e.definitions, e.readings, definitions, readings, definitions', readings');
      definitions, readings := definitions', readings';
      sentences := ItemSentences(priority, items[i].examples, parentWord);
      LastSentencesStep(priority, items, i, parentWord);
      i := i + 1;
    }
    assert items[..|items|] == items;
  }

  /**
    `fetch_ik_api` for expression `index`, with `parent` the expression the
    search was made for. With `isMassif` it is a Massif search of the selected
    expression. Otherwise a failed request changes nothing; a decoded response
    is merged into the expression, and the last item's sentences replace its
    sentences unless there are none, in which case the Massif search runs
    (with `massif` as its response) on the merged list.
  */
  method FetchIkApi(app: AppState, parent: Expression, index: nat, priority: seq<string>, isMassif: bool,
                    response: Result<seq<IkItem>>, massif: Result<seq<MassifResult>>)
    returns (r: Result<()>)
    requires index < |app.expressions|
    requires app.selectedExpression.Some? ==> app.selectedExpression.value < |app.expressions|
    modifies app`expressions
    ensures isMassif ==> (r, app.expressions) == MassifFallback(old(app.expressions), app.selectedExpression, massif)
    ensures !isMassif && response.Err? ==> r == Err(response.error) && app.expressions == old(app.expressions)
    ensures !isMassif && response.Ok? ==>
              var merged := old(app.expressions)[index := Merged(old(app.expressions)[index], parent.readings, response.value)];
              var sentences := LastSentences(priority, response.value, parent.dictWord);
              && (sentences == [] ==> (r, app.expressions) == MassifFallback(merged, app.selectedExpression, massif))
              && (sentences != [] ==> r == Ok(()) && app.expressions == merged[index := merged[index].(sentences := Some(sentences))])
  {
    if isMassif {
      r := FetchMassifSentences(app, massif);
      return;
    }
    if response.Err? {
      return Err(response.error);
    }
    var e := app.expressions[index];
    var definitions, readings, sentences := MergeItems(e, parent.readings, priority, response.value, parent.dictWord);
    app.expressions := app.expressions[index := e.(definitions := definitions, readings := readings)];
    if sentences == [] {
      r := FetchMassifSentences(app, massif);
      return;
    }
    app.expressions := app.expressions[index := app.expressions[index].(sentences := Some(sentences))];
    r := Ok(());
  }

  // ---------------------------------------------------------------------------
  // Audio cache

  /** The audio cache of sentence `si` of expression `ei` filled with `bytes`. */
  function WithAudio(exps: seq<Expression>, ei: nat, si: nat, bytes: seq<bv8>): (r: seq<Expression>)
    requires ei < |exps| && exps[ei].sentences.Some? && si < |exps[ei].sentences.value|
    ensures |r| == |exps| && forall k :: 0 <= k < |exps| && k != ei ==> r[k] == exps[k]
    ensures r[ei].sentences.Some? && |r[ei].sentences.value| == |exps[ei].sentences.value|
    ensures r[ei].sentences.value[si] == exps[ei].sentences.value[si].(audioData := Some(bytes))
    ensures forall k :: 0 <= k < |exps[ei].sentences.value| && k != si ==> r[ei].sentences.value[k] == exps[ei].sentences.value[k]
    ensures r[ei] == exps[ei].(sentences := r[ei].sentences)
  {
    var ss := exps[ei].sentences.value;
    exps[ei := exps[ei].(sentences := Some(ss[si := ss[si].(audioData := Some(bytes))]))]
  }

  /**
    `play_audio`: the bytes handed to the player, `None` when no sentence is
    selected. Cached bytes are played as they are; otherwise the sentence
    needs an audio URL, and the downloaded bytes (`download`, the response for
    that URL) are stored in the cache before they are played. The source
    unwraps the sentence list and indexes it, hence the precondition.
  */
  method PlayAudio(app: AppState, download: Result<seq<bv8>>) returns (r: Result<Option<seq<bv8>>>)
    requires app.selectedExpression.Some? ==>
               && app.selectedExpression.value < |app.expressions|
               && var e := app.expressions[app.selectedExpression.value];
                  e.selectedSentence.Some? ==> e.sentences.Some? && e.selectedSentence.value < |e.sentences.value|
    modifies app`expressions
    ensures app.selectedExpression.None? || old(app.expressions[app.selectedExpression.value].selectedSentence).None? ==>
              r == Ok(None) && app.expressions == old(app.expressions)
    ensures app.selectedExpression.Some? && old(app.expressions[app.selectedExpression.value].selectedSentence).Some? ==>
              var ei := app.selectedExpression.value;
              var si := old(app.expressions[ei].selectedSentence.value);
              var s := old(app.expressions[ei].sentences.value[si]);
              && (s.audioData.Some? ==> r == Ok(Some(s.audioData.value)) && app.expressions == old(app.expressions))
              && (s.audioData.None? && s.audioUrl.None? ==> r == Err(NO_AUDIO_URL) && app.expressions == old(app.expressions))
              && (s.audioData.None? && s.audioUrl.Some? && download.Err? ==>
                    r == Err(download.error) && app.expressions == old(app.expressions))
              && (s.audioData.None? && s.audioUrl.Some? && download.Ok? ==>
                    r == Ok(Some(download.value)) && app.expressions == WithAudio(old(app.expressions), ei, si, download.value))
  {
    if app.selectedExpression.None? {
      return Ok(None);
    }
    var ei := app.selectedExpression.value;
    var e := app.expressions[ei];
    if e.selectedSentence.None? {
      return Ok(None);
    }
    var si := e.selectedSentence.value;
    var s := e.sentences.value[si];
    if s.audioData.Some? {
      return Ok(Some(s.audioData.value));
    }
    if s.audioUrl.None? {
      return Err(NO_AUDIO_URL);
    }
    if download.Err? {
      return Err(download.error);
    }
    app.expressions := WithAudio(app.expressions, ei, si, download.value);
    r := Ok(Some(download.value));
  }

  /** Once filled, the cache is used as it is: a second `play_audio` downloads nothing and changes nothing. */
  lemma CacheFilledOnce(exps: seq<Expression>, ei: nat, si: nat, bytes: seq<bv8>)
    requires ei < |exps| && exps[ei].sentences.Some? && si < |exps[ei].sentences.value|
    requires exps[ei].sentences.value[si].audioData.None?
    ensures WithAudio(exps, ei, si, bytes)[ei].sentences.value[si].audioData == Some(bytes)
    ensures WithAudio(exps, ei, si, bytes)[ei].selectedSentence == exps[ei].selectedSentence
  {
  }
}

=== FILE: help_page.dfy ===
/**
  The help page's keybinding tables (the `Keybinds` struct of keybinds.rs):
  per section a list of key titles, a list of explanations and a list cursor.
*/
module HelpPage {
  import opened Wrappers

  datatype KeybindSection = Expressions | Sentences | Notes | Input

  datatype Keybinds = Keybinds(
    expTitles: seq<string>,
    sentTitles: seq<string>,
    inputTitles: seq<string>,
    noteTitles: seq<string>,
    expState: Option<nat>,
    sentState: Option<nat>,
    inputState: Option<nat>,
    noteState: Option<nat>,
    expAbouts: seq<string>,
    sentAbouts: seq<string>,
    inputAbouts: seq<string>,
    noteAbouts: seq<string>,
    selectedSection: KeybindSection)

  function Titles(kb: Keybinds, section: KeybindSection): seq<string>
  {
    match section
    case Expressions => kb.expTitles
    case Sentences => kb.sentTitles
    case Notes => kb.noteTitles
    case Input => kb.inputTitles
  }

  function Abouts(kb: Keybinds, section: KeybindSection): seq<string>
  {
    match section
    case Expressions => kb.expAbouts
    case Sentences => kb.sentAbouts
    case Notes => kb.noteAbouts
    case Input => kb.inputAbouts
  }

  /** The selection of a section's `ListState`. */
  function State(kb: Keybinds, section: KeybindSection): Option<nat>
  {
    match section
    case Expressions => kb.expState
    case Sentences => kb.sentState
    case Notes => kb.noteState
    case Input => kb.inputState
  }

  /** `state.select(st)` on the state that `get_kb_section_state_and_len` hands out. */
  function WithState(kb: Keybinds, section: KeybindSection, st: Option<nat>): (r: Keybinds)
    ensures State(r, section) == st
    ensures forall other :: other != section ==> State(r, other) == State(kb, other)
    ensures forall s :: Titles(r, s) == Titles(kb, s) && Abouts(r, s) == Abouts(kb, s)
    ensures r.selectedSection == kb.selectedSection
  {
    match section
    case Expressions => kb.(expState := st)
    case Sentences => kb.(sentState := st)
    case Notes => kb.(noteState := st)
    case Input => kb.(inputState := st)
  }

  /**
    Every section has as many explanations as titles, at least one of each,
    and its cursor, when set, is on a title.
  */
  predicate Valid(kb: Keybinds)
  {
    forall s ::
      && |Titles(kb, s)| == |Abouts(kb, s)|
      && |Titles(kb, s)| > 0
      && (State(kb, s).Some? ==> State(kb, s).value < |Titles(kb, s)|)
  }

  /** `Keybinds::new`. */
  function NewKeybinds(): (kb: Keybinds)
    ensures Valid(kb)
    ensures |kb.expTitles| == |kb.expAbouts| == 7
    ensures |kb.sentTitles| == |kb.sentAbouts| == 5
    ensures |kb.noteTitles| == |kb.noteAbouts| == 4
    ensures |kb.inputTitles| == |kb.inputAbouts| == 5
    ensures forall s :: State(kb, s).None?
    ensures kb.selectedSection == Expressions
  {
    Keybinds(
      expTitles := ["Enter", "C-Enter", "I", "Y", "D", "Up", "Down"],
      sentTitles := ["P", "L", "Esc", "Up", "Down"],
      inputTitles := ["Enter", "P", "Left", "Right", "Backspace"],
      noteTitles := ["C-Enter", "D", "N", "Esc"],
      expState := None,
      sentState := None,
      inputState := None,
      noteState := None,
      expAbouts := EXP_ABOUTS,
      sentAbouts := SENT_ABOUTS,
      inputAbouts := INPUT_ABOUTS,
      noteAbouts := NOTE_ABOUTS,
      selectedSection := Expressions)
  }

  /**
    The explanation `rend_about` shows: the one under the selected section's
    cursor, or the first when nothing is selected. In range whenever the
    tables are valid.
  */
  function SelectedAbout(kb: Keybinds): (about: string)
    requires Valid(kb)
    ensures about in Abouts(kb, kb.selectedSection)
    ensures about == Abouts(kb, kb.selectedSection)[State(kb, kb.selectedSection).GetOr(0)]
  {
    var section := kb.selectedSection;
    Abouts(kb, section)[State(kb, section).GetOr(0)]
  }

  const EXP_ABOUTS: seq<string> := [
      "Fetches Sentences\n\U{200E}\nSentences may include, or exactly match the selected Expression in one of its forms.\nDepending on the word's rarity, either it's kanji form, or it's kana reading may provide more accurate results.\nSee `<C-Enter>` for more information on sentence accuracy.\n\U{200E}\nIf no sentences are found from Immersion Kit, it will fetch sentences from Massif.la.\nMassif.la sentences don't contain audio or images.\n(WIP) You can set `\"tts\": true` in your config.json to generate audio for the sentence.",
      "[Ctrl + Enter] - Enables `Exact Search` for Immersion Kit Search Results\n\U{200E}\nThis will find sentences that contain a 1 to 1 match of the selected Expression.\n\U{200E}\nThis means that it will not try to match the Expressions kana reading.\nOr if the Expression is a verb, it will not recognize it's conjugated forms.\n\U{200E}\nIf no sentences are found from Immersion Kit with `Exact Search` enabled, it will still fetch from Massif.la (with `Exact Search` disabled).",
      "Focuses the Search Box\n\U{200E}\nPress <I> to see Search Box keybinds.",
      "Copies Selected Expression into Input Box\n\U{200E}\nPress <I> to see Search Box keybinds.",
      "Deletes the Selected Expression\n\U{200E}\nThis will also remove the expression from your words.txt file.\nYou can set `\"del_word\": true` in your config.json to automatically delete selected Expressions from your words.txt after updating their Anki Notes.",
      "Selects the Previous Expression\n\U{200E}\nFocuses the Previous Expression in the Expressions List.",
      "Selects the Next Expression\n\U{200E}\nFocuses the Next Expression in the Expressions List."
    ]

  const SENT_ABOUTS: seq<string> := [
      "Plays the Sentence's Audio\n\U{200E}\nMassif.la sentences don't contain audio, so nothing will play.\n(WIP) You can set `\"tts\": true` in your config.json to generate audio for the sentence.",
      "Opens Sentence in the Default Browser\n\U{200E}\nThis will take you to either Immersion Kit, or Massif.la's website with the sentence pasted into the searchbar.",
      "Focuses Expressions List\n\U{200E}\nUnfocuses the Sentences List & Focuses the Expressions List.",
      "Selects the Previous Sentence\n\U{200E}\nFocuses the Previous Expression in the Sentences List.",
      "Selects the Next Sentence\n\U{200E}\nFocuses the Next Sentence in the Sentences List."
    ]

  const NOTE_ABOUTS: seq<string> := [
      "[Ctrl + Enter] - Update Notes\n\U{200E}\nFinds, checks, then updates any Anki Notes that contain the selected Expressions.\nIf the selected Sentence was fetched from Massif.la, it will only update the Sentence field specified in your config.json.\nOtherwise it will update the Sentence, and Audio fields.\nSome entries on Immersion Kit do not contain an image file (ie. Skyrim).\nIf an image file exists, it will be added as well.\n\U{200E}\nWarning: Overwrites existing data in the Anki fields specified in your config.json except the Audio & Image fields, those will get appended to.",
      "Deletes the Selected Sentence\n\U{200E}\nRemoves the sentence from the Notes list.",
      "Focuses the Notes Section\n\U{200E}\nFocuses the Notes section if it is not already focused.",
      "Focuses to the Expressions Section\n\U{200E}\nFocuses the Expressions section if focused on the Notes section."
    ]

  const INPUT_ABOUTS: seq<string> := [
      "Submits the Current Input\n\U{200E}\nYou can jump to a specific Expression by entering it's List number.\nYou can also jump to a specific Expression by entering the Expression. Note that it must be an exact match.",
      "Pastes from Clipboard\n\U{200E}\nPastes the current copied text from the Clipboard into the Search Box.",
      "Selects the Previous Character\n\U{200E}\nSelects the Previous Character of the Text in the Search Box.",
      "Selects the Next Character\n\U{200E}\nFocuses the Next Char of the Text in the Search Box.",
      "Deletes the Previous Character\n\U{200E}\nDeletes the Previous Character of the Text in the Search Box."
    ]
}

=== FILE: keybinds.dfy ===
/**
  keybinds.rs: the state changes behind the key bindings — the list of
  sentences waiting to become note updates, and the wrap-around cursors of the
  pending-notes list, the sentence list, the expression list and the help
  sections.
*/
module Keybinds {
  import opened Wrappers
  import opened Cursor
  import opened App
  import Cmds
  import HelpPage

  // ---------------------------------------------------------------------------
  // check_notes_or_push

  predicate HasParent(pending: seq<Sentence>, word: string)
  {
    exists k :: 0 <= k < |pending| && pending[k].parentWord == word
  }

  /** At most one pending sentence per parent word. */
  predicate UniqueParents(pending: seq<Sentence>)
  {
    forall i, j :: 0 <= i < j < |pending| ==> pending[i].parentWord != pending[j].parentWord
  }

  /** Every pending sentence with the parent word of `s` replaced by `s`. */
  function ReplaceByParent(pending: seq<Sentence>, s: Sentence): (r: seq<Sentence>)
    ensures |r| == |pending|
    ensures forall k :: 0 <= k < |r| ==> r[k] == (if pending[k].parentWord == s.parentWord then s else pending[k])
  {
    if pending == [] then []
    else ReplaceByParent(pending[..|pending| - 1], s) + [if pending[|pending| - 1].parentWord == s.parentWord then s else pending[|pending| - 1]]
  }

  /**
    The pending list after `check_notes_or_push` with sentence `s`: `s` takes
    the place of every entry for the same word, or is appended when there is none.
  */
  function ReplaceOrPush(pending: seq<Sentence>, s: Sentence): (r: seq<Sentence>)
    ensures |r| == if HasParent(pending, s.parentWord) then |pending| else |pending| + 1
    ensures s in r
    ensures forall k :: 0 <= k < |r| && r[k].parentWord == s.parentWord ==> r[k] == s
    ensures forall k :: 0 <= k < |pending| && pending[k].parentWord == s.parentWord ==> r[k] == s
    ensures forall k :: 0 <= k < |pending| && pending[k].parentWord != s.parentWord ==> r[k] == pending[k]
  {
    if HasParent(pending, s.parentWord) then
      var r := ReplaceByParent(pending, s);
      var k :| 0 <= k < |pending| && pending[k].parentWord == s.parentWord;
      assert r[k] == s;
      r
    else
      pending + [s]
  }

  /** Replacing or pushing keeps at most one pending sentence per word. */
  lemma ReplaceOrPushUnique(pending: seq<Sentence>, s: Sentence)
    requires UniqueParents(pending)
    ensures UniqueParents(ReplaceOrPush(pending, s))
  {
    var r := ReplaceOrPush(pending, s);
    forall i, j | 0 <= i < j < |r|
      ensures r[i].parentWord != r[j].parentWord
    {
      if j == |pending| {
        assert !HasParent(pending, s.parentWord);
        assert pending[i].parentWord != s.parentWord;
      }
    }
  }

  /**
    `check_notes_or_push`: the current sentence replaces the pending entries of
    its word or is appended, and the expression list gets the focus, whether or
    not there is a current sentence.
  */
  method CheckNotesOrPush(app: AppState)
    requires Cmds.CurrentSentenceInRange(app.expressions, app.selectedExpression)
    modifies app`notesToBeCreated, app`selectMode
    ensures app.selectMode == Expressions
    ensures app.notesToBeCreated.selected == old(app.notesToBeCreated.selected)
    ensures old(Cmds.GetCurrentSentence(app)).None? ==> app.notesToBeCreated == old(app.notesToBeCreated)
    ensures old(Cmds.GetCurrentSentence(app)).Some? ==>
              app.notesToBeCreated.sentences == ReplaceOrPush(old(app.notesToBeCreated.sentences), old(Cmds.GetCurrentSentence(app)).value)
  {
    var current := Cmds.GetCurrentSentence(app);
    if current.Some? {
      var sentence := current.value;
      var pending := app.notesToBeCreated.sentences;
      var found := false;
      var newSentences: seq<Sentence> := [];
      var i := 0;
      while i < |pending|
        invariant 0 <= i <= |pending|
        invariant newSentences == ReplaceByParent(pending[..i], sentence)
        invariant found <==> HasParent(pending[..i], sentence.parentWord)
      {
        assert pending[..i + 1][..i] == pending[..i];
        if pending[i].parentWord == sentence.parentWord {
          found := true;
          newSentences := newSentences + [sentence];
        } else {
          newSentences := newSentences + [pending[i]];
        }
        assert found ==> HasParent(pending[..i + 1], sentence.parentWord) by {
          if found && !HasParent(pending[..i], sentence.parentWord) {
            assert pending[..i + 1][i].parentWord == sentence.parentWord;
          }
        }
        i := i + 1;
      }
      assert pending[..|pending|] == pending;
      if !found {
        newSentences := newSentences + [sentence];
      }
      app.notesToBeCreated := app.notesToBeCreated.(sentences := newSentences);
    }
    app.selectMode := Expressions;
  }

  // ---------------------------------------------------------------------------
  // delete_note

  /** The pending-notes cursor, or the first entry when none is set, is on an entry. */
  predicate CursorOnEntry(notes: PendingNotes)
  {
    notes.sentences != [] ==> notes.selected.GetOr(0) < |notes.sentences|
  }

  /**
    `delete_note`: removes the entry under the cursor (the first when none is
    set); moves the cursor up one unless it was on the first entry; gives the
    expression list the focus when the list becomes empty. `Vec::remove`
    panics on a cursor past the end, hence the precondition.
  */
  method DeleteNote(app: AppState)
    requires CursorOnEntry(app.notesToBeCreated)
    modifies app`notesToBeCreated, app`selectMode
    ensures CursorOnEntry(app.notesToBeCreated)
    ensures old(app.notesToBeCreated.sentences) == [] ==>
              app.notesToBeCreated == old(app.notesToBeCreated) && app.selectMode == old(app.selectMode)
    ensures old(app.notesToBeCreated.sentences) != [] ==>
              var i := old(app.notesToBeCreated.selected).GetOr(0);
              var old_ := old(app.notesToBeCreated.sentences);
              && app.notesToBeCreated.sentences == old_[..i] + old_[i + 1..]
              && (app.notesToBeCreated.sentences == [] ==>
                    app.selectMode == Expressions && app.notesToBeCreated.selected == old(app.notesToBeCreated.selected))
              && (app.notesToBeCreated.sentences != [] ==> app.selectMode == old(app.selectMode))
              && (app.notesToBeCreated.sentences != [] && i == 0 ==>
                    app.notesToBeCreated.selected == old(app.notesToBeCreated.selected))
              && (app.notesToBeCreated.sentences != [] && i > 0 ==> app.notesToBeCreated.selected == Some(i - 1))
  {
    if app.notesToBeCreated.sentences == [] {
      return;
    }
    var i := app.notesToBeCreated.selected.GetOr(0);
    var s := app.notesToBeCreated.sentences;
    app.notesToBeCreated := app.notesToBeCreated.(sentences := s[..i] + s[i + 1..]);
    if app.notesToBeCreated.sentences == [] {
      app.selectMode := Expressions;
      return;
    }
    if i == 0 {
      return;
    }
    app.notesToBeCreated := app.notesToBeCreated.(selected := Some(i - 1));
  }

  // ---------------------------------------------------------------------------
  // Cursors

  /** The cursor after moving up: wrap from the first entry to the last; with no cursor, `fallback`. */
  function PrevCursor(sel: Option<nat>, len: nat, fallback: nat): (j: nat)
    ensures sel.Some? && sel.value < len ==> j < len && j == (sel.value + len - 1) % len
    ensures sel.None? ==> j == fallback
  {
    match sel
    case Some(i) => StepPrev(i, len)
    case None => fallback
  }

  /** The cursor after moving down: wrap from the last entry to the first; with no cursor, `fallback`. */
  function NextCursor(sel: Option<nat>, len: nat, fallback: nat): (j: nat)
    requires sel.Some? ==> len > 0
    ensures sel.Some? && sel.value < len ==> j < len && j == (sel.value + 1) % len
    ensures sel.None? ==> j == fallback
  {
    match sel
    case Some(i) => StepNext(i, len)
    case None => fallback
  }

  /** `select_prev_note`: nothing on an empty list; otherwise up one, wrapping, or the first entry. */
  method SelectPrevNote(app: AppState)
    modifies app`notesToBeCreated
    ensures app.notesToBeCreated.sentences == old(app.notesToBeCreated.sentences)
    ensures old(app.notesToBeCreated.sentences) == [] ==> app.notesToBeCreated == old(app.notesToBeCreated)
    ensures old(app.notesToBeCreated.sentences) != [] ==>
              app.notesToBeCreated.selected ==
                Some(PrevCursor(old(app.notesToBeCreated.selected), |app.notesToBeCreated.sentences|, 0))
    ensures old(CursorOnEntry(app.notesToBeCreated)) ==> CursorOnEntry(app.notesToBeCreated)
  {
    var len := |app.notesToBeCreated.sentences|;
    if len == 0 {
      return;
    }
    var j := PrevCursor(app.notesToBeCreated.selected, len, 0);
    app.notesToBeCreated := app.notesToBeCreated.(selected := Some(j));
  }

  /** `select_next_note`: nothing on an empty list; otherwise down one, wrapping, or the first entry. */
  method SelectNextNote(app: AppState)
    modifies app`notesToBeCreated
    ensures app.notesToBeCreated.sentences == old(app.notesToBeCreated.sentences)
    ensures old(app.notesToBeCreated.sentences) == [] ==> app.notesToBeCreated == old(app.notesToBeCreated)
    ensures old(app.notesToBeCreated.sentences) != [] ==>
              app.notesToBeCreated.selected ==
                Some(NextCursor(old(app.notesToBeCreated.selected), |app.notesToBeCreated.sentences|, 0))
    ensures old(CursorOnEntry(app.notesToBeCreated)) ==> CursorOnEntry(app.notesToBeCreated)
  {
    var len := |app.notesToBeCreated.sentences|;
    if len == 0 {
      return;
    }
    var j := NextCursor(app.notesToBeCreated.selected, len, 0);
    app.notesToBeCreated := app.notesToBeCreated.(selected := Some(j));
  }

  /** The selected expression with its sentence cursor and selected sentence both set to `j`. */
  function WithSentence(e: Expression, j: nat): (r: Expression)
    ensures r.selectedSentence == Some(j) && r.sentencesState == Some(j)
    ensures r.dictWord == e.dictWord && r.sentences == e.sentences && r.readings == e.readings
    ensures r.definitions == e.definitions && r.exactSearch == e.exactSearch
  {
    e.(selectedSentence := Some(j), sentencesState := Some(j))
  }

  /**
    `select_prev_sentence`: within the selected expression's sentences, up one
    with wrap-around; with no cursor, the selected sentence (else the first).
    The source computes `len - 1` on an empty list when the cursor is on 0,
    hence the precondition.
  */
  method SelectPrevSentence(app: AppState)
    requires app.selectedExpression.Some? ==>
               && app.selectedExpression.value < |app.expressions|
               && var e := app.expressions[app.selectedExpression.value];
                  e.sentences.Some? && e.sentencesState == Some(0) ==> e.sentences.value != []
    modifies app`expressions
    ensures app.selectedExpression.None? || old(app.expressions[app.selectedExpression.value].sentences).None? ==>
              app.expressions == old(app.expressions)
    ensures app.selectedExpression.Some? && old(app.expressions[app.selectedExpression.value].sentences).Some? ==>
              var i := app.selectedExpression.value;
              var e := old(app.expressions[i]);
              app.expressions == old(app.expressions)[i := WithSentence(e, PrevCursor(e.sentencesState, |e.sentences.value|, e.selectedSentence.GetOr(0)))]
  {
    if app.selectedExpression.Some? {
      var i := app.selectedExpression.value;
      var e := app.expressions[i];
      if e.sentences.Some? {
        var j := PrevCursor(e.sentencesState, |e.sentences.value|, e.selectedSentence.GetOr(0));
        app.expressions := app.expressions[i := WithSentence(e, j)];
      }
    }
  }

  /**
    `select_next_sentence`: within the selected expression's non-empty
    sentences, down one with wrap-around; with no cursor, the selected
    sentence (else the first).
  */
  method SelectNextSentence(app: AppState)
    requires app.selectedExpression.Some? ==> app.selectedExpression.value < |app.expressions|
    modifies app`expressions
    ensures app.selectedExpression.None? || old(app.expressions[app.selectedExpression.value].sentences).None?
            || old(app.expressions[app.selectedExpression.value].sentences) == Some([]) ==>
              app.expressions == old(app.expressions)
    ensures app.selectedExpression.Some? && old(app.expressions[app.selectedExpression.value].sentences).Some?
            && old(app.expressions[app.selectedExpression.value].sentences) != Some([]) ==>
              var i := app.selectedExpression.value;
              var e := old(app.expressions[i]);
              app.expressions == old(app.expressions)[i := WithSentence(e, NextCursor(e.sentencesState, |e.sentences.value|, e.selectedSentence.GetOr(0)))]
  {
    if app.selectedExpression.Some? {
      var i := app.selectedExpression.value;
      var e := app.expressions[i];
      if e.sentences.Some? {
        if e.sentences.value == [] {
          return;
        }
        var j := NextCursor(e.sentencesState, |e.sentences.value|, e.selectedSentence.GetOr(0));
        app.expressions := app.expressions[i := WithSentence(e, j)];
      }
    }
  }

  /**
    `select_prev_exp`: up one with wrap-around (to `len - 1` saturating); with
    no cursor, the selected expression (else the first). The selection and the
    list cursor end up equal.
  */
  method SelectPrevExp(app: AppState)
    modifies app`selectedExpression, app`expressionsState
    ensures app.selectedExpression == app.expressionsState
    ensures app.selectedExpression ==
              Some(PrevCursor(old(app.expressionsState), |app.expressions|, old(app.selectedExpression).GetOr(0)))
  {
    var i := PrevCursor(app.expressionsState, |app.expressions|, app.selectedExpression.GetOr(0));
    app.selectedExpression := Some(i);
    app.expressionsState := Some(i);
  }

  /**
    `select_next_exp`: down one with wrap-around; with no cursor, the selected
    expression (else the first). The source computes `len - 1` without
    checking, so a set cursor needs a non-empty list, which the key handler
    guarantees.
  */
  method SelectNextExp(app: AppState)
    requires app.expressionsState.Some? ==> app.expressions != []
    modifies app`selectedExpression, app`expressionsState
    ensures app.selectedExpression == app.expressionsState
    ensures app.selectedExpression ==
              Some(NextCursor(old(app.expressionsState), |app.expressions|, old(app.selectedExpression).GetOr(0)))
  {
    var i := NextCursor(app.expressionsState, |app.expressions|, app.selectedExpression.GetOr(0));
    app.selectedExpression := Some(i);
    app.expressionsState := Some(i);
  }

  // ---------------------------------------------------------------------------
  // Help sections

  /** The length half of `get_kb_section_state_and_len`: the number of titles of the section. */
  function SectionLen(kb: HelpPage.Keybinds, section: HelpPage.KeybindSection): (len: nat)
    ensures HelpPage.Valid(kb) ==> len > 0 && len == |HelpPage.Abouts(kb, section)|
  {
    |HelpPage.Titles(kb, section)|
  }

  /**
    `select_prev_keybind`: the section's cursor up one with wrap-around, or the
    first title when unset; only that cursor changes, and valid tables stay valid.
  */
  method SelectPrevKeybind(app: AppState, section: HelpPage.KeybindSection)
    requires HelpPage.State(app.keybinds, section) == Some(0) ==> SectionLen(app.keybinds, section) > 0
    modifies app`keybinds
    ensures app.keybinds ==
              HelpPage.WithState(old(app.keybinds), section,
                Some(PrevCursor(HelpPage.State(old(app.keybinds), section), SectionLen(old(app.keybinds), section), 0)))
    ensures HelpPage.Valid(old(app.keybinds)) ==> HelpPage.Valid(app.keybinds)
  {
    var len := SectionLen(app.keybinds, section);
    var i := PrevCursor(HelpPage.State(app.keybinds, section), len, 0);
    app.keybinds := HelpPage.WithState(app.keybinds, section, Some(i));
  }

  /**
    `select_next_keybind`: the section's cursor down one with wrap-around, or
    the first title when unset; only that cursor changes, and valid tables stay valid.
  */
  method SelectNextKeybind(app: AppState, section: HelpPage.KeybindSection)
    requires HelpPage.State(app.keybinds, section).Some? ==> SectionLen(app.keybinds, section) > 0
    modifies app`keybinds
    ensures app.keybinds ==
              HelpPage.WithState(old(app.keybinds), section,
                Some(NextCursor(HelpPage.State(old(app.keybinds), section), SectionLen(old(app.keybinds), section), 0)))
    ensures HelpPage.Valid(old(app.keybinds)) ==> HelpPage.Valid(app.keybinds)
  {
    var len := SectionLen(app.keybinds, section);
    var i := NextCursor(HelpPage.State(app.keybinds, section), len, 0);
    app.keybinds := HelpPage.WithState(app.keybinds, section, Some(i));
  }
}

=== FILE: text.dfy ===
/**
  The string operations of Rust's standard library that the core relies on:
  `trim`, `split_whitespace` and `join`, `find`, `contains` and `replace`,
  `usize::from_str`, `{}` formatting of an unsigned integer and the UTF-8
  byte length `str::len`. Strings are sequences of Unicode scalar values.
*/
module Text {
  import opened Wrappers

  // ---------------------------------------------------------------------------
  // Whitespace, trim

  /** Unicode White_Space, the set `char::is_whitespace` tests. */
  predicate IsWhitespace(c: char)
  {
    || ('\t' <= c <= '\r')
    || c == ' '
    || c == '\U{0085}'
    || c == '\U{00A0}'
    || c == '\U{1680}'
    || ('\U{2000}' <= c <= '\U{200A}')
    || c == '\U{2028}'
    || c == '\U{2029}'
    || c == '\U{202F}'
    || c == '\U{205F}'
    || c == '\U{3000}'
  }

  predicate NoWhitespace(s: string)
  {
    forall k :: 0 <= k < |s| ==> !IsWhitespace(s[k])
  }

  predicate AllWhitespace(s: string)
  {
    forall k :: 0 <= k < |s| ==> IsWhitespace(s[k])
  }

  /** `trim_start`: the suffix left after dropping leading whitespace. */
  function TrimStart(s: string): (r: string)
    ensures |r| <= |s| && r == s[|s| - |r|..]
    ensures AllWhitespace(s[..|s| - |r|])
    ensures r != [] ==> !IsWhitespace(r[0])
  {
    if s != [] && IsWhitespace(s[0]) then
      var r := TrimStart(s[1..]);
      DropFront(s, r);
      r
    else
      s
  }

  /** Dropping one leading whitespace character before a cut of the tail. */
  lemma DropFront(s: string, r: string)
    requires s != [] && IsWhitespace(s[0])
    requires |r| <= |s| - 1 && r == s[1..][|s| - 1 - |r|..] && AllWhitespace(s[1..][..|s| - 1 - |r|])
    ensures r == s[|s| - |r|..] && AllWhitespace(s[..|s| - |r|])
  {
    var n := |s| - |r|;
    assert s[1..][n - 1..] == s[n..];
    assert s[..n] == [s[0]] + s[1..][..n - 1];
  }

  /** `trim_end`: the prefix left after dropping trailing whitespace. */
  function TrimEnd(s: string): (r: string)
    ensures |r| <= |s| && r == s[..|r|]
    ensures AllWhitespace(s[|r|..])
    ensures r != [] ==> !IsWhitespace(r[|r| - 1])
  {
    if s != [] && IsWhitespace(s[|s| - 1]) then
      var r := TrimEnd(s[..|s| - 1]);
      assert s[|r|..] == s[..|s| - 1][|r|..] + [s[|s| - 1]];
      r
    else
      s
  }

  /** `r` is `s` from position `i` on, with only whitespace cut at either end. */
  predicate StripsTo(s: string, r: string, i: int)
  {
    0 <= i && i + |r| <= |s| && r == s[i..i + |r|] && AllWhitespace(s[..i]) && AllWhitespace(s[i + |r|..])
  }

  /** `str::trim`. */
  function Trim(s: string): (r: string)
    ensures |r| <= |s|
    ensures r != [] ==> !IsWhitespace(r[0]) && !IsWhitespace(r[|r| - 1])
    ensures r == [] <==> AllWhitespace(s)
    ensures s != [] && !IsWhitespace(s[0]) && !IsWhitespace(s[|s| - 1]) ==> r == s
    ensures exists i :: StripsTo(s, r, i)
  {
    var t := TrimStart(s);
    var r := TrimEnd(t);
    StripBoth(s, t, r);
    r
  }

  /**
   * What trimming from the front (giving `t`) and then from the back (giving
   * `r`) leaves, stated over any `t` and `r` with the shape `TrimStart` and
   * `TrimEnd` guarantee.
   */
  lemma StripBoth(s: string, t: string, r: string)
    requires |t| <= |s| && t == s[|s| - |t|..] && AllWhitespace(s[..|s| - |t|])
    requires t != [] ==> !IsWhitespace(t[0])
    requires |r| <= |t| && r == t[..|r|] && AllWhitespace(t[|r|..])
    requires r != [] ==> !IsWhitespace(r[|r| - 1])
    ensures StripsTo(s, r, |s| - |t|)
    ensures r != [] ==> !IsWhitespace(r[0])
    ensures r == [] <==> AllWhitespace(s)
    ensures s != [] && !IsWhitespace(s[0]) && !IsWhitespace(s[|s| - 1]) ==> r == s
  {
    var i := |s| - |t|;
    assert s[i + |r|..] == t[|r|..];
    if r == [] {
      assert t[|r|..] == t;
      assert t == [];
      assert s[..i] == s;
    } else {
      assert s[i] == r[0];
      assert t[0] == r[0];
    }
    if s != [] && !IsWhitespace(s[0]) && !IsWhitespace(s[|s| - 1]) {
      assert i == 0;
      assert |r| == |t|;
    }
  }

  /** Trimming adds no character: a character the input lacks, the result lacks. */
  lemma TrimAvoids(s: string, c: char)
    requires c !in s
    ensures c !in Trim(s)
  {
    var r := Trim(s);
    var i :| StripsTo(s, r, i);
    SliceAvoids(s, r, i, c);
  }

  lemma SliceAvoids(s: string, r: string, i: int, c: char)
    requires 0 <= i && i + |r| <= |s| && r == s[i..i + |r|] && c !in s
    ensures c !in r
  {
    forall k | 0 <= k < |r|
      ensures r[k] != c
    {
      assert r[k] == s[i + k];
    }
  }

  lemma TrimIdempotent(s: string)
    ensures Trim(Trim(s)) == Trim(s)
  {
  }

  // ---------------------------------------------------------------------------
  // split_whitespace, join

  /** A token of `split_whitespace`: non-empty, without whitespace. */
  predicate IsWord(w: string)
  {
    w != [] && NoWhitespace(w)
  }

  /** Length of the run of non-whitespace characters that starts `s`. */
  function WordEnd(s: string): (n: nat)
    ensures n <= |s|
    ensures NoWhitespace(s[..n])
    ensures n < |s| ==> IsWhitespace(s[n])
  {
    if s == [] || IsWhitespace(s[0]) then 0 else 1 + WordEnd(s[1..])
  }

  /** `split_whitespace`: the maximal runs of non-whitespace characters, in order. */
  function Tokens(s: string): (ts: seq<string>)
    ensures forall k :: 0 <= k < |ts| ==> IsWord(ts[k])
    decreases |s|
  {
    if s == [] then []
    else if IsWhitespace(s[0]) then Tokens(s[1..])
    else
      var n := WordEnd(s);
      [s[..n]] + Tokens(s[n..])
  }

  /** `[String]::join(sep)`. */
  function Join(ws: seq<string>, sep: string): string
  {
    if ws == [] then ""
    else if |ws| == 1 then ws[0]
    else ws[0] + sep + Join(ws[1..], sep)
  }

  /** Whitespace before the text, however much, adds no token. */
  lemma {:induction false} TokensSkip(ws: string, s: string)
    requires AllWhitespace(ws)
    ensures Tokens(ws + s) == Tokens(s)
    decreases |ws|
  {
    if ws == [] {
      assert ws + s == s;
    } else {
      var t := ws + s;
      assert t[0] == ws[0];
      assert t[1..] == ws[1..] + s;
      TokensSkip(ws[1..], s);
    }
  }

  /** Between two words, a run of whitespace separates exactly as one space does. */
  lemma TokensSeparator(w: string, ws: string, s: string)
    requires IsWord(w) && ws != [] && AllWhitespace(ws)
    ensures Tokens(w + ws + s) == [w] + Tokens(s)
  {
    assert w + ws + s == w + (ws + s);
    TokensOfWordThen(w, ws + s);
    TokensSkip(ws, s);
  }

  lemma {:induction false} TokensOfWordThen(w: string, rest: string)
    requires IsWord(w)
    requires rest == [] || IsWhitespace(rest[0])
    ensures Tokens(w + rest) == [w] + Tokens(rest)
  {
    var s := w + rest;
    var n := WordEnd(s);
    assert n >= |w|;
    assert n <= |w| by {
      if rest != [] {
        assert IsWhitespace(s[|w|]);
      }
    }
    assert s[..n] == w;
    assert s[n..] == rest;
  }

  /** Joining words with single spaces and splitting again gives the words back. */
  lemma {:induction false} TokensOfJoin(ws: seq<string>)
    requires forall k :: 0 <= k < |ws| ==> IsWord(ws[k])
    ensures Tokens(Join(ws, " ")) == ws
  {
    if ws == [] {
    } else if |ws| == 1 {
      TokensOfWordThen(ws[0], "");
      assert ws[0] + "" == ws[0];
    } else {
      var rest := Join(ws[1..], " ");
      TokensOfJoin(ws[1..]);
      assert Join(ws, " ") == ws[0] + (" " + rest);
      TokensOfWordThen(ws[0], " " + rest);
      assert (" " + rest)[1..] == rest;
    }
  }

  // ---------------------------------------------------------------------------
  // find, contains, replace

  predicate OccursAt<T(==)>(s: seq<T>, w: seq<T>, k: int)
  {
    0 <= k && k + |w| <= |s| && s[k..k + |w|] == w
  }

  lemma OccursAtTail<T>(s: seq<T>, w: seq<T>, k: nat)
    requires s != []
    ensures OccursAt(s[1..], w, k) <==> OccursAt(s, w, k + 1)
  {
    if k + 1 + |w| <= |s| {
      assert s[1..][k..k + |w|] == s[k + 1..k + 1 + |w|];
    }
  }

  /** `str::find`: the first position where `w` occurs in `s`. */
  function Find<T(==)>(s: seq<T>, w: seq<T>): (r: Option<nat>)
    ensures r.Some? ==> OccursAt(s, w, r.value)
    ensures r.Some? ==> forall k :: 0 <= k < r.value ==> !OccursAt(s, w, k)
    ensures r.None? ==> forall k :: !OccursAt(s, w, k)
    decreases |s|
  {
    if |w| > |s| then None
    else if s[..|w|] == w then Some(0)
    else
      var r := Find(s[1..], w);
      assert !OccursAt(s, w, 0);
      assert forall k: int :: OccursAt(s, w, k) <==> k >= 1 && OccursAt(s[1..], w, k - 1) by {
        forall k: int ensures OccursAt(s, w, k) <==> k >= 1 && OccursAt(s[1..], w, k - 1) {
          if k >= 1 {
            OccursAtTail(s, w, k - 1);
          }
        }
      }
      if r.None? then None else Some(r.value + 1)
  }

  /** `str::contains`. */
  predicate Contains<T(==)>(s: seq<T>, w: seq<T>)
  {
    Find(s, w).Some?
  }

  /** `str::replace(p, "")`: every leftmost, non-overlapping occurrence of `p` removed. */
  function RemoveAll<T(==)>(s: seq<T>, p: seq<T>): (r: seq<T>)
    ensures |r| <= |s|
    ensures p == [] || !Contains(s, p) ==> r == s
    decreases |s|
  {
    if p == [] || |s| < |p| then s
    else if s[..|p|] == p then
      assert OccursAt(s, p, 0);
      RemoveAll(s[|p|..], p)
    else
      assert !Contains(s, p) ==> !Contains(s[1..], p) by {
        var f := Find(s[1..], p);
        if f.Some? {
          OccursAtTail(s, p, f.value);
        }
      }
      [s[0]] + RemoveAll(s[1..], p)
  }

  /**
    The first occurrence of `p` is removed, the text before it is kept, and the
    removal resumes right after it.
  */
  lemma {:induction false} RemoveAllAtFirst<T>(s: seq<T>, p: seq<T>, i: nat)
    requires p != [] && Find(s, p) == Some(i)
    ensures RemoveAll(s, p) == s[..i] + RemoveAll(s[i + |p|..], p)
  {
    RemoveAllFirstAt(s, p, i, s[i + |p|..]);
  }

  /**
    `RemoveAllAtFirst` for any position where `p` occurs and before which it
    does not; `rest` is what follows that occurrence.
  */
  lemma {:induction false} RemoveAllFirstAt<T>(s: seq<T>, p: seq<T>, i: nat, rest: seq<T>)
    requires p != [] && OccursAt(s, p, i) && rest == s[i + |p|..]
    requires forall k :: 0 <= k < i ==> !OccursAt(s, p, k)
    ensures RemoveAll(s, p) == s[..i] + RemoveAll(rest, p)
    decreases i
  {
    if i == 0 {
      RemoveAllHit(s, p, rest);
    } else {
      var t, j := s[1..], i - 1;
      NoneBeforeTail(s, t, p, i, j);
      TailSlices(s, t, i, j, |p|, rest);
      RemoveAllFirstAt(t, p, j, rest);
      RemoveAllShift(s, t, p, i, j, rest);
    }
  }

  /** Moving into the tail keeps the first occurrence first. */
  lemma NoneBeforeTail<T>(s: seq<T>, t: seq<T>, p: seq<T>, i: nat, j: nat)
    requires s != [] && t == s[1..] && i == j + 1
    requires OccursAt(s, p, i) && forall k :: 0 <= k < i ==> !OccursAt(s, p, k)
    ensures OccursAt(t, p, j) && forall k :: 0 <= k < j ==> !OccursAt(t, p, k)
  {
    OccursAtTail(s, p, j);
    forall k | 0 <= k < j
      ensures !OccursAt(t, p, k)
    {
      OccursAtTail(s, p, k);
    }
  }

  /** An occurrence at the front is dropped and the removal goes on after it. */
  lemma RemoveAllHit<T>(s: seq<T>, p: seq<T>, rest: seq<T>)
    requires p != [] && OccursAt(s, p, 0) && rest == s[0 + |p|..]
    ensures RemoveAll(s, p) == s[..0] + RemoveAll(rest, p)
  {
    assert s[..|p|] == s[0..0 + |p|];
    assert rest == s[|p|..];
    assert s[..0] + RemoveAll(rest, p) == RemoveAll(rest, p);
  }

  /** A front that does not start an occurrence is kept. */
  lemma RemoveAllMiss<T>(s: seq<T>, p: seq<T>)
    requires p != [] && |p| <= |s| && !OccursAt(s, p, 0)
    ensures RemoveAll(s, p) == [s[0]] + RemoveAll(s[1..], p)
  {
    assert s[..|p|] != p by {
      assert s[..|p|] == s[0..0 + |p|];
    }
  }

  /** What the removal does to the tail, it does to the whole when the front is kept. */
  lemma RemoveAllShift<T>(s: seq<T>, t: seq<T>, p: seq<T>, i: nat, j: nat, rest: seq<T>)
    requires p != [] && i == j + 1 && i + |p| <= |s| && !OccursAt(s, p, 0) && t == s[1..]
    requires RemoveAll(t, p) == t[..j] + RemoveAll(rest, p)
    ensures RemoveAll(s, p) == s[..i] + RemoveAll(rest, p)
  {
    RemoveAllMiss(s, p);
    TailSlices(s, t, i, j, 0, RemoveAll(rest, p));
  }

  /** The slices of the tail `t` of `s`, seen as slices of `s`. */
  lemma TailSlices<T>(s: seq<T>, t: seq<T>, i: nat, j: nat, n: nat, after: seq<T>)
    requires s != [] && t == s[1..] && i == j + 1 && i + n <= |s|
    ensures t[j + n..] == s[i + n..]
    ensures [s[0]] + (t[..j] + after) == s[..i] + after
  {
    assert [s[0]] + t[..j] == s[..i];
  }

  /** A pattern that occurs once is cut out exactly there. */
  lemma RemoveAllOnce<T>(s: seq<T>, p: seq<T>, i: nat)
    requires p != [] && Find(s, p) == Some(i) && !Contains(s[i + |p|..], p)
    ensures RemoveAll(s, p) == s[..i] + s[i + |p|..]
  {
    RemoveAllAtFirst(s, p, i);
  }

  // ---------------------------------------------------------------------------
  // Decimal numbers

  /** One past the largest `usize` (64-bit target). */
  const USIZE_LIMIT: nat := 0x1_0000_0000_0000_0000

  predicate IsDigit(c: char)
  {
    '0' <= c <= '9'
  }

  predicate AllDigits(s: string)
  {
    forall k :: 0 <= k < |s| ==> IsDigit(s[k])
  }

  function DigitChar(d: nat): (c: char)
    requires d < 10
    ensures IsDigit(c) && c as int - '0' as int == d
  {
    ('0' as int + d) as char
  }

  /** The value of a string of decimal digits. */
  function DigitsValue(s: string): nat
    requires AllDigits(s)
  {
    if s == [] then 0 else 10 * DigitsValue(s[..|s| - 1]) + (s[|s| - 1] as int - '0' as int)
  }

  /** The way `{}` prints `n`: decimal digits of value `n` with no leading zero. */
  predicate IsDecimalOf(d: string, n: nat)
  {
    d != [] && AllDigits(d) && (|d| == 1 || d[0] != '0') && DigitsValue(d) == n
  }

  /** `{}` formatting of an unsigned integer: shortest decimal form. */
  function NatToDecimal(n: nat): (s: string)
    ensures s != [] && AllDigits(s)
    ensures |s| > 1 ==> s[0] != '0'
  {
    if n < 10 then [DigitChar(n)] else NatToDecimal(n / 10) + [DigitChar(n % 10)]
  }

  /**
    `usize::from_str`: an optional `+`, then at least one decimal digit, and a
    value that fits in 64 bits; anything else is an error.
  */
  function ParseUsize(s: string): (r: Option<nat>)
    ensures r.Some? ==> r.value < USIZE_LIMIT
    ensures r.Some? ==> s != [] && (AllDigits(s) || (|s| >= 2 && s[0] == '+' && AllDigits(s[1..])))
    ensures s != [] && AllDigits(s) ==>
              r == if DigitsValue(s) < USIZE_LIMIT then Some(DigitsValue(s)) else None
    ensures |s| >= 2 && s[0] == '+' && AllDigits(s[1..]) ==>
              r == if DigitsValue(s[1..]) < USIZE_LIMIT then Some(DigitsValue(s[1..])) else None
  {
    var digits := if s != [] && s[0] == '+' then s[1..] else s;
    if digits != [] && AllDigits(digits) && DigitsValue(digits) < USIZE_LIMIT then
      Some(DigitsValue(digits))
    else
      None
  }

  lemma {:induction false} DecimalValue(n: nat)
    ensures DigitsValue(NatToDecimal(n)) == n
  {
    if n >= 10 {
      DecimalValue(n / 10);
      var s := NatToDecimal(n);
      assert s[..|s| - 1] == NatToDecimal(n / 10);
    }
  }

  /** `{}` prints the one canonical decimal form of `n`. */
  lemma DecimalCanonical(n: nat)
    ensures IsDecimalOf(NatToDecimal(n), n)
  {
    DecimalValue(n);
  }

  /** Printing a `usize` and parsing it back gives the same number. */
  lemma DecimalRoundTrip(n: nat)
    requires n < USIZE_LIMIT
    ensures ParseUsize(NatToDecimal(n)) == Some(n)
  {
    DecimalValue(n);
  }

  // ---------------------------------------------------------------------------
  // UTF-8 length

  function Utf8Width(c: char): (w: nat)
    ensures 1 <= w <= 4
  {
    if c as int < 0x80 then 1
    else if c as int < 0x800 then 2
    else if c as int < 0x1_0000 then 3
    else 4
  }

  /** `str::len`: the number of bytes of the UTF-8 encoding. */
  function Utf8Len(s: string): (n: nat)
    ensures |s| <= n <= 4 * |s|
  {
    if s == [] then 0 else Utf8Len(s[..|s| - 1]) + Utf8Width(s[|s| - 1])
  }

  /** The byte length of a concatenation is the sum of the byte lengths. */
  lemma {:induction false} Utf8LenAppend(a: string, b: string)
    ensures Utf8Len(a + b) == Utf8Len(a) + Utf8Len(b)
    decreases |b|
  {
    if b == [] {
      assert a + b == a;
    } else {
      var n := |a + b|;
      assert (a + b)[..n - 1] == a + b[..|b| - 1];
      assert (a + b)[n - 1] == b[|b| - 1];
      Utf8LenAppend(a, b[..|b| - 1]);
    }
  }

  /** ASCII text takes one byte per character, and only ASCII text does. */
  lemma {:induction false} Utf8LenAscii(s: string)
    ensures Utf8Len(s) == |s| <==> forall k :: 0 <= k < |s| ==> s[k] as int < 0x80
  {
    if s != [] {
      var init := s[..|s| - 1];
      Utf8LenAscii(init);
      assert forall k :: 0 <= k < |init| ==> init[k] == s[k];
    }
  }

  // ---------------------------------------------------------------------------
  // Concatenation

  function Concat<T>(ss: seq<seq<T>>): seq<T>
  {
    if ss == [] then [] else Concat(ss[..|ss| - 1]) + ss[|ss| - 1]
  }
}

=== FILE: ui.dfy ===
/**
  ui.rs: the parts of rendering that decide content rather than layout — the
  split of a sentence around its word, which list entries are highlighted as
  pending, and the default texts of the information and error panes.
*/
module Ui {
  import opened Wrappers
  import opened Text
  import opened App
  import Keybinds

  const NO_ERRORS := "No Errors. :-)"
  const WORDS_PREFIX := "Words: ["

  /**
    `sentence_to_list_item`: the sentence cut into the part before the first
    occurrence of the word, the occurrence, and the rest. When the word does
    not occur the cut starts at 0 and takes as many elements as the word has;
    the source panics when that runs past the end, hence the precondition.
    Generic in the element so that it reads the same over bytes, as the
    source slices, or over characters.
  */
  function SplitAround<T(==)>(sentence: seq<T>, word: seq<T>): (parts: (seq<T>, seq<T>, seq<T>))
    requires Contains(sentence, word) || |word| <= |sentence|
    ensures parts.0 + parts.1 + parts.2 == sentence
    ensures Contains(sentence, word) ==>
              && parts.1 == word
              && (forall k :: 0 <= k < |parts.0| ==> !OccursAt(sentence, word, k))
              && (word != [] ==> !Contains(parts.0, word))
    ensures !Contains(sentence, word) ==> parts.0 == [] && parts.1 == sentence[..|word|]
  {
    var start := Find(sentence, word).GetOr(0);
    var end := start + |word|;
    var parts := (sentence[..start], sentence[start..end], sentence[end..]);
    assert parts.0 + parts.1 + parts.2 == sentence;
    assert Contains(sentence, word) && word != [] ==> !Contains(parts.0, word) by {
      if Contains(sentence, word) && word != [] {
        forall k | 0 <= k && k + |word| <= |parts.0|
          ensures !OccursAt(parts.0, word, k)
        {
          assert k < start == Find(sentence, word).value;
          assert !OccursAt(sentence, word, k);
          assert parts.0[k..k + |word|] == sentence[k..k + |word|];
        }
      }
    }
    parts
  }

  /**
    The green background of an expression in `rend_expressions`: the first
    pending sentence whose parent word is the expression's word decides.
  */
  predicate ExpressionHighlighted(exp: Expression, pending: seq<Sentence>)
    ensures ExpressionHighlighted(exp, pending) <==> exists k :: 0 <= k < |pending| && pending[k].parentWord == exp.dictWord
  {
    if pending == [] then false
    else if pending[0].parentWord == exp.dictWord then true
    else
      var rest := pending[1..];
      assert forall k :: 1 <= k < |pending| ==> pending[k] == rest[k - 1];
      ExpressionHighlighted(exp, rest)
  }

  /**
    The green background of a sentence: it is one of the pending sentences,
    compared field by field. The parent expression takes part only through its
    word, since that is all a sentence keeps of it here.
  */
  predicate SentenceHighlighted(s: Sentence, pending: seq<Sentence>)
    ensures SentenceHighlighted(s, pending) <==> s in pending
  {
    if pending == [] then false
    else if pending[0] == s then true
    else
      assert pending == [pending[0]] + pending[1..];
      SentenceHighlighted(s, pending[1..])
  }

  /**
    Marking a sentence with `check_notes_or_push` highlights it and the
    expression it was fetched for.
  */
  lemma MarkedIsHighlighted(pending: seq<Sentence>, s: Sentence, exp: Expression)
    requires exp.dictWord == s.parentWord
    ensures SentenceHighlighted(s, Keybinds.ReplaceOrPush(pending, s))
    ensures ExpressionHighlighted(exp, Keybinds.ReplaceOrPush(pending, s))
  {
    var r := Keybinds.ReplaceOrPush(pending, s);
    var k :| 0 <= k < |r| && r[k] == s;
    assert r[k].parentWord == exp.dictWord;
  }

  /**
    The text of the information pane: the message when there is one,
    otherwise the word count between `Words: [` and `]`.
  */
  function InfoText(msg: Option<string>, wordCount: nat): (text: string)
    ensures msg.Some? ==> text == msg.value
    ensures msg.None? ==>
              && |text| > |WORDS_PREFIX| + 1
              && text[..|WORDS_PREFIX|] == WORDS_PREFIX && text[|text| - 1] == ']'
              && IsDecimalOf(text[|WORDS_PREFIX|..|text| - 1], wordCount)
              && (wordCount < USIZE_LIMIT ==> ParseUsize(text[|WORDS_PREFIX|..|text| - 1]) == Some(wordCount))
  {
    if msg.Some? then msg.value
    else
      var digits := NatToDecimal(wordCount);
      var text := WORDS_PREFIX + digits + "]";
      assert text[|WORDS_PREFIX|..|text| - 1] == digits;
      DecimalCanonical(wordCount);
      text
  }

  /** The text of the error pane: the error message, or the all-clear text when there is none. */
  function ErrorText(errMsg: Option<string>): (text: string)
    ensures errMsg.Some? ==> text == errMsg.value
    ensures errMsg.None? ==> text == NO_ERRORS
  {
    errMsg.GetOr(NO_ERRORS)
  }
}

=== FILE: wrappers.dfy ===
/** Option and Result values standing in for Rust's `Option<T>` and `Result<T, Box<dyn Error>>`. */
module Wrappers {

  datatype Option<T> = None | Some(value: T) {

    /** `unwrap_or`. */
    function GetOr(default: T): T {
      if Some? then value else default
    }
  }

  /** A failed result keeps only the error's message, which is all the source ever reads of it. */
  datatype Result<T> = Ok(value: T) | Err(error: string)
}
